=== FILE: README.md ===
# SecondHandPlatform marketplace core in Dafny

SecondHandPlatform is an ASP.NET MVC marketplace. Signed-in users list
second-hand items, each with an optional photo. Anyone can browse and filter
the catalogue. Administrators maintain categories, moderate listings and
manage user accounts. This project models the three controllers that make up
that core:

- `ProductsController`: the filtered catalogue, the details page, the
  caller's own listings, and the owner's create, edit and delete with their
  image uploads.
- `AdminController`: the dashboard, category create/edit/delete with its
  "in use" guard, moderation deletes, the user list and details, and the
  lockout and Admin-role toggles.
- `HomeController.Index`: the twelve newest listings.

Each action is modelled as a pure function. It maps the persistent state
(`Models.Store`: the product, category and user tables, the next value of
each table's identity column, and the set of files under the upload
directory), the caller, the bound form and what the runtime
decides (clock, GUID, whether the disk write succeeds) to the next state and
what the action returns. Error results can still carry side effects, exactly
as the controllers do: a file written before a failing insert stays on disk,
and an old image deleted before a failing write stays deleted.

Modules:

- `Text`: the string primitives the controllers rely on. These are `Path.GetExtension` (with
  both separators), ASCII `ToLower`, ordinal `Contains`, `Char.IsWhiteSpace`
  for `[Required]`, and UTF-16 length for `[StringLength]`.
- `Tables`: `SortedKeys` lists a key set in ascending order.
- `Models`: entities, their annotations, the store, its well-formedness `Wf`
  (rows under their own keys, every key below its table's identity value,
  foreign keys resolve, stored rows satisfy their annotations), and the action results.
- `Listing`: the shared Where / OrderByDescending(UploadDate) / Take shape.
- `Uploads`: the image size and extension checks, the saved path, and deleting a
  product's file.
- `ProductsController`, `AdminController`, `HomeController`: the actions.
- `Scenarios`: a worked example. An administrator creates "Electronics", a
  seller lists a phone at 199.99, and the catalogue is filtered by category
  and by minimum price.

Behaviour the model follows as the code has it, where a plainer reading of
the application's intent would differ:

- The user-side `Delete` admits only the listing's owner. Administrators
  remove other users' listings through `AdminController.DeleteProduct`.
- On Edit with a new image, the old file is deleted before the new one is
  written. A failed write therefore leaves the row pointing at a deleted file.
- `Edit` and `Delete` answer Forbid, not NotFound, for a product id that does not exist.
- Create keeps an `ImagePath` submitted with the form when no file is uploaded.
- `EditCategory` with id 0 in both the route and the form adds a new
  category. Entity Framework's `Update` treats an entity whose generated key
  still holds 0 as new, so the save inserts it.
- ModelState is computed when the form is bound. Create therefore validates the
  submitted `UserId`, not the server's. `UploadDate` carries no annotation.
  The model checks the explicit annotations only; see "## Left out" for the
  implicit requirements nullable reference types would add.
- The search filter is skipped only for an empty string. A search made of
  spaces still filters.
- The status toggle sets the expiry to `DateTimeOffset.MaxValue` or null.
  Two toggles restore the flag but not necessarily the lock state the user
  list shows.

## Model

| member | source | states |
|---|---|---|
| `ProductsController.Index` | Controllers/ProductsController.cs:36-62 | the catalogue lists exactly the products meeting every supplied criterion (search in title or description unless empty, category, min and max price, each inclusive), each matching row once, newest first |
| `ProductsController.MyProducts` | Controllers/ProductsController.cs:91-96 | exactly the caller's listings, each once, newest first |
| `ProductsController.Details` | Controllers/ProductsController.cs:69-84 | the page shows the product with the given id; a missing id or unknown product is NotFound |
| `ProductsController.EditPage` | Controllers/ProductsController.cs:175-189 | the edit form is shown only to the owner; a missing id is NotFound, an unknown or foreign product is Forbid |
| `ProductsController.EditPageAgreesWithEdit` | Controllers/ProductsController.cs:175-210 | the GET form is shown exactly when a POST with the same id is not refused with Forbid |
| `ProductsController.Create` | Controllers/ProductsController.cs:115-168 | invalid fields, an oversize file and a disallowed extension are each rejected exactly when they apply, in that order and without changing state; a failed image write fails with nothing changed; success inserts one row, owned by the caller and dated now, under the identity column's next value, which then advances, with the saved upload's path or the submitted path; an explicit id, a key already taken or a dangling foreign key fails with no row added but the written file left on disk; well-formedness is preserved |
| `ProductsController.Edit` | Controllers/ProductsController.cs:198-287 | route/form id mismatch is NotFound, an unknown or foreign product is Forbid; for the owner, invalid fields are rejected exactly when the form is invalid and change nothing, a declined upload is rejected with its reason and changes nothing, a failed write fails with the old file deleted and the row unchanged, and a missing category fails at the save with the row unchanged and any file replacement already done; success exactly when the form is valid, any upload passes its checks and is written, and the category exists; only title, description, price, category and (with an upload) image path change; the old file is replaced by the new one; well-formedness is preserved |
| `ProductsController.ReplaceImage` | Controllers/ProductsController.cs:216-270 | on Edit with an upload: a declined file is rejected with its reason and nothing changes; otherwise the old file is deleted first, a failed write fails with only that deletion done, a save that fails on a missing category leaves the old file deleted and the new one written, and success saves the row with the new path and the new file alongside |
| `ProductsController.Delete` | Controllers/ProductsController.cs:296-317 | only the owner may delete; success removes exactly that row and its image file and nothing else; well-formedness is preserved |
| `ProductsController.InsertKeepsWf` | Models/Product.cs:11-40 | inserting a row whose title, description and price satisfy their annotations and whose foreign keys resolve keeps the store well-formed |
| `ProductsController.DeleteUndoesInsert` | Controllers/ProductsController.cs:296-317 | deleting, as owner, a row just inserted with its freshly added file restores the previous store |
| `ProductsController.CreateThenDeleteRestores` | Controllers/ProductsController.cs:115-164 | a successful Create followed by the owner's Delete of the new key gives back the original store when the upload path was fresh and no path was submitted, except that the identity column has moved past the deleted key |
| `ProductsController.DeletedListingStaysNotFound` | Controllers/ProductsController.cs:69-82 | once a listing is deleted, a later Create does not reuse its key, so its details page stays NotFound |
| `ProductsController.SubmittedImagePathIsDeletedWithTheListing` | Controllers/ProductsController.cs:159-163 | a listing created with another listing's image path, once deleted by its owner, removes that file while the other listing still names it |
| `ProductsController.EditWithoutImageIsIdempotent` | Controllers/ProductsController.cs:263-270 | repeating an edit without an upload returns the same result and leaves the store as the first edit left it |
| `ProductsController.FailedWriteOnEditLosesOldImage` | Controllers/ProductsController.cs:235-258 | when the new image cannot be written, the action fails, the row still names its old image, and that file is gone |
| `ProductsController.DeleteRefusesAdministratorWhoIsNotOwner` | Controllers/ProductsController.cs:296-302 | the user-side Delete refuses an administrator who does not own the listing and changes nothing |
| `Uploads.CheckImage` | Controllers/ProductsController.cs:125-140 | a file is refused as too large exactly when it exceeds 5 MiB, refused for its type exactly when within size but its lower-cased extension is not .jpg/.jpeg/.png/.gif, and accepted otherwise |
| `Uploads.ExtensionAllowedIgnoringCase` | Controllers/ProductsController.cs:133-135 | an extension passes the check exactly when it equals .jpg, .jpeg, .png or .gif ignoring ASCII letter case |
| `Uploads.CheckImageByFinalExtension` | Controllers/ProductsController.cs:133-135 | a name ending in an allowed extension, in any letter case and after any stem, is accepted up to and including 5 MiB and refused as too large beyond |
| `Uploads.DeleteImageOf` | Controllers/ProductsController.cs:305-312 | removing a product's image deletes its file when the path is neither null nor empty, and nothing else; a missing file is not an error |
| `Uploads.UploadPath` | Controllers/ProductsController.cs:150-159 | the saved path is "/uploads/" followed by the GUID and then the lower-cased extension |
| `AdminController.Index` | Controllers/AdminController.cs:34-47 | the dashboard counts users, products and categories and shows min(10, products) listings, newest first, none newer than any left out, no row more often than the table holds it and so, in a well-formed store, none twice |
| `AdminController.Products` | Controllers/AdminController.cs:161-166 | every listing of every owner, each once, newest first |
| `AdminController.CreateCategory` | Controllers/AdminController.cs:70-100 | a category is added under the identity column's next value, which then advances, exactly when the caller is an administrator, the form is valid, carries no explicit id and the key is free; a failing insert is reported on the form with nothing changed; nothing else changes; well-formedness is preserved |
| `AdminController.EditCategoryPage` | Controllers/AdminController.cs:107-112 | the form is shown for an existing category; NotFound otherwise |
| `AdminController.EditCategoryPageAgreesWithPost` | Controllers/AdminController.cs:104-131 | for a non-zero id and a valid form, the GET form is shown exactly when the POST succeeds |
| `AdminController.EditCategoryPageAndPostDisagreeOnZero` | Controllers/AdminController.cs:104-131 | for route id 0 the GET form is not found, while posting a valid form with id 0 adds a category |
| `AdminController.EditCategory` | Controllers/AdminController.cs:119-131 | route/form id mismatch is NotFound; for a valid form, id 0 inserts the form as a new category under the identity column's next value, which then advances, and any other id replaces exactly that existing category; an invalid form is rejected and shown again with nothing changed; an insert onto a taken key or an id naming no category fails, the exception being uncaught, with nothing changed |
| `AdminController.EditCategoryZeroCreates` | Controllers/AdminController.cs:117-127 | editing with route and form id 0 leaves the same store as CreateCategory and succeeds exactly when it does |
| `AdminController.DeleteCategory` | Controllers/AdminController.cs:138-155 | a category any listing uses is kept and reported as a conflict; an unused one is removed with success; an unknown id changes nothing; well-formedness is preserved |
| `AdminController.DeleteProduct` | Controllers/AdminController.cs:173-190 | an administrator removes any listing and its image file, whoever owns it; an unknown id changes nothing |
| `AdminController.Users` | Controllers/AdminController.cs:196-213 | one row per user with its id, email, full name and roles, locked out exactly when lockout is enabled and the expiry is later than now |
| `AdminController.UserDetailsPage` | Controllers/AdminController.cs:264-288 | an existing user's details, lock state and exactly its listings, each once; NotFound for an unknown user |
| `AdminController.ToggledLockout` | Controllers/AdminController.cs:223-226 | the flag is negated, the expiry becomes MaxValue when now set and null when now cleared, and nothing else about the user changes |
| `AdminController.ToggleUserStatus` | Controllers/AdminController.cs:220-234 | only the named user's lockout is toggled; every other user and table is unchanged; an unknown id changes nothing |
| `AdminController.ToggledAdmin` | Controllers/AdminController.cs:244-255 | the Admin role is added when absent and removed when present, other roles and fields unchanged |
| `AdminController.ToggleAdminRole` | Controllers/AdminController.cs:241-257 | only the named user's Admin membership flips; nothing else changes |
| `AdminController.ToggleLockoutTwice` | Controllers/AdminController.cs:223-226 | two toggles restore the flag, and restore the user exactly when its expiry already agreed with the flag |
| `AdminController.LockedOutAfterToggleIffEnabled` | Controllers/AdminController.cs:208 | right after a toggle, before MaxValue, the user is shown locked out exactly when the new flag is set |
| `AdminController.FreshUserIsLockedOnlyBySecondToggle` | Controllers/AdminController.cs:223-226 | a freshly registered user shows unlocked, still unlocked after one toggle, and locked after the second |
| `AdminController.ToggleAdminRoleTwiceRestores` | Controllers/AdminController.cs:244-255 | toggling the Admin role twice gives back the original store |
| `AdminController.RemovingCategoryInUseBreaksWf` | Controllers/AdminController.cs:142-149 | removing a category a listing uses would leave that listing's foreign key dangling |
| `AdminController.NewCategoryHasNoProducts` | Models/Category.cs:20 | a newly created category has no listings |
| `AdminController.CreateCategoryThenDeleteRestores` | Controllers/AdminController.cs:76-77 | creating a category and then deleting it gives back the original store, except that the identity column has moved past the deleted key |
| `AdminController.OwnerDeleteAgreesWithModeration` | Controllers/AdminController.cs:173-187 | for the owner of a listing, the user-side delete and the moderation delete leave the same store |
| `HomeController.Index` | Controllers/HomeController.cs:22-29 | the home page shows min(12, products) listings, newest first, none newer than any left out, no row more often than the table holds it and so, when every row sits under its own id as in a well-formed store, none twice |
| `Listing.Query` | Controllers/ProductsController.cs:36-62 | a Where followed by OrderByDescending yields exactly the passing rows, each once, newest first |
| `Listing.Newest` | Controllers/HomeController.cs:22-27 | OrderByDescending then Take(n) yields min(n, rows) rows, newest first, none newer than any omitted, each row at most as often as the table holds it, with no repeats when every row sits under its own id |
| `Listing.SortNewestFirst` | Controllers/AdminController.cs:164 | sorting by upload date descending is a permutation in date order |
| `Text.GetExtensionSpec` | Controllers/ProductsController.cs:134 | the extension is the suffix from the last dot that has no separator after it and is not the final character, and is empty when no such dot exists |
| `Text.ContainsIffOccurs` | Controllers/ProductsController.cs:38-40 | the search match holds exactly when the search string occurs at some position of the text |
| `Text.ToLower` | Controllers/ProductsController.cs:134 | lower-casing keeps the length, leaves no ASCII capital, and keeps every character except capitals, which move to their lower-case letter |
| `Text.ToLowerMatchesIgnoringCase` | Controllers/ProductsController.cs:134-135 | comparing a lower-cased string with one that has no capitals is the same as comparing the original with it ignoring ASCII case |
| `Text.Utf16Length` | Models/Product.cs:12 | the length a StringLength limit counts is the number of characters plus the number outside the basic plane, so between the number of characters and twice that |
| `Scenarios.PhoneIsListedUnderElectronics` | Controllers/ProductsController.cs:43-46 | after "Electronics" and a phone in it are created on an empty catalogue, filtering by that category lists exactly the phone |
| `Scenarios.PhoneIsBelowMinimumPrice` | Controllers/ProductsController.cs:48-51 | a minimum price of 200.00 excludes the phone at 199.99 |
| `Scenarios.IndexOfOneListing` | Controllers/ProductsController.cs:36-62 | with one listing, the catalogue shows it exactly when it matches the filter |

## Left out

- File and database I/O, async, and concurrency. The store is one value, each action one atomic step. Two requests interleaving (for example a listing added between the in-use check and the delete of a category) is outside the model.
- The `DbUpdateConcurrencyException` branch of Edit (ProductsController.cs:272-282) arises only under concurrent updates, which are not modelled.
- A failed image write in Create or Edit is assumed to leave no file behind. A partially written file is not modelled.
- The identity columns advance only on a successful insert. SQL Server may also consume an identity value when an insert fails or is rolled back, and may skip values after a restart; the model promises only that a value is never handed out twice.
- Uploads.DeleteImageOf: a file is named by the exact `ImagePath` string, whereas the action deletes `Path.Combine(WebRootPath, ImagePath.TrimStart('/'))`. Paths that differ as strings but name the same file ("uploads/x.jpg" and "/uploads/x.jpg", or "//uploads/x.jpg") are treated as different files, and a submitted path that escapes the web root ("/../appsettings.json") is not recognised as naming a file outside the upload directory.
- ProductsController.SubmittedImagePathIsDeletedWithTheListing: shows the hazard only for a submitted path equal, as a string, to another listing's path; the aliases and escapes above are not covered.
- Culture-sensitive `ToLower` and database collation. Lower-casing is ASCII and `Contains` is an ordinal substring match; a case-insensitive collation would match more rows.
- Prices are whole cents. The bound form could carry sub-cent decimals, which `decimal(18,2)` storage would round.
- The `UploadDate` default of `DateTime.Now` at construction is not modelled, because Create always overwrites it.
- Null versus empty for the required strings. A null Title, Description or UserId is represented by the empty string, which `[Required]` rejects equally.
- The Admin role is assumed to exist when ToggleAdminRole adds it, and identity errors from `UpdateAsync`, `AddToRoleAsync` and `RemoveFromRoleAsync` are not modelled.
- `AdminController.Categories`, `Privacy`, `Error`, the GET forms that only render a view, `Program.cs` seeding, TempData messages, console logging and the views. None of them changes the store or decides an outcome.
- Anti-forgery validation. `[ValidateAntiForgeryToken]` answers 400 Bad Request before the action runs when the token is missing or wrong; the model starts at the action body, so every modelled post assumes a valid token.
- ProductsController.Create: assumes ModelState checks only the explicit annotations. The project file is not part of this model. If it enables nullable reference types, MVC also treats the non-nullable `Product.User` and `Product.Category` navigations and the `IFormFile imageFile` parameter as required; no form posts them, so `ModelState.IsValid` would be false on every post and the success paths would never run.
- ProductsController.Edit: makes the same ModelState assumption as Create, for the same navigations and the same `imageFile` parameter.
- Ties in upload date. The database gives no order to rows with equal dates, so the listing contracts fix only the date order, membership and count.
- AdminController.UserDetailsPage: does not show phone number and address, because those profile fields are not part of the model's user record.

=== FILE: admin_controller.dfy ===
/**
 The administrator's actions: the dashboard, category maintenance with its
 guard against deleting a category in use, moderation of any listing, and the
 user list with its lockout and Admin-role toggles. Every action requires the
 Admin role in the caller's claims and is refused with Forbid otherwise.
 */
module AdminController {
  import opened Models
  import opened Listing
  import opened Uploads
  import ProductsController

  /** The number of products the dashboard shows. */
  const RecentCount := 10

  /** DateTimeOffset.MaxValue, in ticks on the same clock as `now`. */
  const MaxInstant := 3_155_378_975_999_999_999

  datatype Dashboard = Dashboard(
    totalUsers: nat,
    totalProducts: nat,
    totalCategories: nat,
    recentProducts: seq<Product>)

  /** GET Admin: the table sizes and the ten newest listings, newest first. */
  function Index(s: Store, caller: Caller): (r: Page<Dashboard>)
    ensures r.Refused? <==> !IsAdmin(caller)
    ensures r.Refused? ==> r.outcome == Forbid
    ensures r.Page? ==>
              && r.model.totalUsers == |s.users|
              && r.model.totalProducts == |s.products|
              && r.model.totalCategories == |s.categories|
    ensures r.Page? ==>
              var recent := r.model.recentProducts;
              && |recent| == Min(RecentCount, |s.products|)
              && NewestFirst(recent)
              && (forall p :: p in recent ==> p in s.products.Values)
              && (forall p :: p in s.products.Values && p !in recent ==>
                    forall i :: 0 <= i < |recent| ==> p.uploadDate <= recent[i].uploadDate)
              && (Wf(s) ==> Distinct(recent))
              && DrawnFrom(recent, s.products)
  {
    if !IsAdmin(caller) then Refused(Forbid)
    else Page(Dashboard(|s.users|, |s.products|, |s.categories|, Newest(s.products, RecentCount)))
  }

  /** GET Admin/Products: every listing, whoever owns it, newest first. */
  function Products(s: Store, caller: Caller): (r: Page<seq<Product>>)
    ensures r.Refused? <==> !IsAdmin(caller)
    ensures r.Refused? ==> r.outcome == Forbid
    ensures r.Page? ==>
              && NewestFirst(r.model)
              && |r.model| == |s.products|
              && (forall p :: p in r.model <==> p in s.products.Values)
  {
    if !IsAdmin(caller) then Refused(Forbid) else Page(AllNewestFirst(s.products))
  }

  /** POST Admin/CreateCategory. A valid form is inserted under the identity
      column's next value. An explicit id makes the insert throw, as does a key
      already taken; the action catches the exception and reports it on the form. */
  function CreateCategory(s: Store, caller: Caller, form: Category): (r: Step)
    ensures !IsAdmin(caller) ==> r == Step(s, Forbid)
    ensures r.store.products == s.products && r.store.users == s.users && r.store.files == s.files
    ensures r.store.productIdentity == s.productIdentity
    ensures !r.outcome.Success? ==> r.store == s
    ensures IsAdmin(caller) && !r.outcome.Success? ==> r.outcome == Rejected(InvalidFields)
    ensures r.outcome.Success? <==>
              IsAdmin(caller) && CategoryValid(form) && form.id == 0 && s.categoryIdentity !in s.categories
    ensures r.outcome.Success? ==>
              var id := s.categoryIdentity;
              && r.store.categoryIdentity == id + 1
              && r.store.categories.Keys == s.categories.Keys + {id}
              && (forall k :: k in s.categories ==> r.store.categories[k] == s.categories[k])
              && r.store.categories[id] == form.(id := id)
    ensures Wf(s) ==> Wf(r.store)
  {
    if !IsAdmin(caller) then Step(s, Forbid)
    else if !CategoryValid(form) || form.id != 0 || s.categoryIdentity in s.categories then
      Step(s, Rejected(InvalidFields))
    else
      var id := s.categoryIdentity;
      AddCategoryKeepsWf(s, form.(id := id));
      Step(s.(categories := s.categories[id := form.(id := id)], categoryIdentity := id + 1), Success)
  }

  lemma AddCategoryKeepsWf(s: Store, c: Category)
    requires c.id == s.categoryIdentity && c.id !in s.categories && CategoryValid(c)
    ensures Wf(s) ==> Wf(s.(categories := s.categories[c.id := c], categoryIdentity := c.id + 1))
  {
    if Wf(s) {
      var t := s.(categories := s.categories[c.id := c], categoryIdentity := c.id + 1);
      assert forall k :: k in t.categories ==> t.categories[k].id == k && CategoryValid(t.categories[k]);
      assert forall k :: k in t.products ==> t.products[k].categoryId in t.categories;
    }
  }

  /** GET Admin/EditCategory/id: NotFound for an unknown category. */
  function EditCategoryPage(s: Store, caller: Caller, id: int): (r: Page<Category>)
    ensures r.Page? <==> IsAdmin(caller) && id in s.categories
    ensures r.Page? ==> r.model == s.categories[id]
    ensures r.Refused? ==> r.outcome == (if IsAdmin(caller) then NotFound else Forbid)
  {
    if !IsAdmin(caller) then Refused(Forbid)
    else if id !in s.categories then Refused(NotFound)
    else Page(s.categories[id])
  }

  /** POST Admin/EditCategory/id. The route id must equal the form's id.
      Entity Framework's Update treats a category whose key is still 0 as a new
      one, so an id of 0 inserts the form under the identity column's next
      value; any other id that names no category makes the update throw. */
  function EditCategory(s: Store, caller: Caller, id: int, form: Category): (r: Step)
    ensures r.store.productIdentity == s.productIdentity
    ensures !IsAdmin(caller) ==> r == Step(s, Forbid)
    ensures IsAdmin(caller) && id != form.id ==> r == Step(s, NotFound)
    // an invalid form is shown again; a save that throws is not caught
    ensures IsAdmin(caller) && id == form.id && !CategoryValid(form) ==> r == Step(s, Rejected(InvalidFields))
    ensures IsAdmin(caller) && id == form.id && CategoryValid(form)
            && (if id == 0 then s.categoryIdentity in s.categories else id !in s.categories) ==>
              r == Step(s, Failed)
    ensures r.store.products == s.products && r.store.users == s.users && r.store.files == s.files
    ensures !r.outcome.Success? ==> r.store == s
    ensures r.outcome.Success? <==>
              && IsAdmin(caller) && id == form.id && CategoryValid(form)
              && (if id == 0 then s.categoryIdentity !in s.categories else id in s.categories)
    ensures r.outcome.Success? && id != 0 ==>
              && r.store.categoryIdentity == s.categoryIdentity
              && r.store.categories.Keys == s.categories.Keys
              && r.store.categories[id] == form
              && (forall k :: k in s.categories && k != id ==> r.store.categories[k] == s.categories[k])
    ensures r.outcome.Success? && id == 0 ==>
              var key := s.categoryIdentity;
              && r.store.categoryIdentity == key + 1
              && r.store.categories.Keys == s.categories.Keys + {key}
              && (forall k :: k in s.categories ==> r.store.categories[k] == s.categories[k])
              && r.store.categories[key] == form.(id := key)
    ensures Wf(s) ==> Wf(r.store)
  {
    if !IsAdmin(caller) then Step(s, Forbid)
    else if id != form.id then Step(s, NotFound)
    else if !CategoryValid(form) then Step(s, Rejected(InvalidFields))
    else if id == 0 then
      if s.categoryIdentity in s.categories then Step(s, Failed)
      else
        var key := s.categoryIdentity;
        AddCategoryKeepsWf(s, form.(id := key));
        Step(s.(categories := s.categories[key := form.(id := key)], categoryIdentity := key + 1), Success)
    else if id !in s.categories then Step(s, Failed)
    else Step(s.(categories := s.categories[id := form]), Success)
  }

  /** Editing with route id 0 adds the form as a new category, leaving the
      same store as CreateCategory; only a failing insert is reported
      differently, since EditCategory does not catch the exception. */
  lemma EditCategoryZeroCreates(s: Store, caller: Caller, form: Category)
    requires form.id == 0
    ensures EditCategory(s, caller, 0, form).store == CreateCategory(s, caller, form).store
    ensures EditCategory(s, caller, 0, form).outcome.Success? <==> CreateCategory(s, caller, form).outcome.Success?
  {
  }

  /** The GET form and the POST action disagree on route id 0: the form is not
      found, yet posting a valid form with id 0 adds a category. */
  lemma EditCategoryPageAndPostDisagreeOnZero(s: Store, caller: Caller, form: Category)
    requires IsAdmin(caller) && 0 !in s.categories && s.categoryIdentity !in s.categories
    requires CategoryValid(form) && form.id == 0
    ensures EditCategoryPage(s, caller, 0) == Refused(NotFound)
    ensures EditCategory(s, caller, 0, form).outcome == Success
  {
  }

  /** For a non-zero id the GET form is shown exactly when a matching POST does
      not answer NotFound or Failed for a missing category. */
  lemma EditCategoryPageAgreesWithPost(s: Store, caller: Caller, id: int, form: Category)
    requires id != 0 && form.id == id && IsAdmin(caller) && CategoryValid(form)
    ensures EditCategoryPage(s, caller, id).Page? <==> EditCategory(s, caller, id, form).outcome == Success
  {
  }

  /** Some listing names the category. */
  predicate InUse(s: Store, categoryId: int) {
    exists k :: k in s.products && s.products[k].categoryId == categoryId
  }

  /** POST Admin/DeleteCategory/id: refused with a message while any listing
      uses the category; an unknown id changes nothing. */
  function DeleteCategory(s: Store, caller: Caller, id: int): (r: Step)
    ensures r.store.productIdentity == s.productIdentity && r.store.categoryIdentity == s.categoryIdentity
    ensures !IsAdmin(caller) ==> r == Step(s, Forbid)
    ensures r.store.products == s.products && r.store.users == s.users && r.store.files == s.files
    ensures r.outcome == Conflict <==> IsAdmin(caller) && id in s.categories && InUse(s, id)
    ensures r.outcome == Conflict ==> r.store == s
    ensures IsAdmin(caller) && id !in s.categories ==> r == Step(s, Success)
    ensures IsAdmin(caller) && id in s.categories && !InUse(s, id) ==> r.outcome == Success
    ensures r.store.categories ==
              if IsAdmin(caller) && id in s.categories && !InUse(s, id)
              then s.categories - {id} else s.categories
    ensures Wf(s) ==> Wf(r.store)
  {
    if !IsAdmin(caller) then Step(s, Forbid)
    else if id !in s.categories then Step(s, Success)
    else if InUse(s, id) then Step(s, Conflict)
    else Step(s.(categories := s.categories - {id}), Success)
  }

  /** POST Admin/DeleteProduct/id: removes any listing and its image file,
      whoever owns it; an unknown id changes nothing. */
  function DeleteProduct(s: Store, caller: Caller, id: int): (r: Step)
    ensures r.store.productIdentity == s.productIdentity && r.store.categoryIdentity == s.categoryIdentity
    ensures !IsAdmin(caller) ==> r == Step(s, Forbid)
    ensures IsAdmin(caller) ==> r.outcome == Success
    ensures IsAdmin(caller) && id !in s.products ==> r.store == s
    ensures r.store.categories == s.categories && r.store.users == s.users
    ensures IsAdmin(caller) && id in s.products ==>
              && r.store.products.Keys == s.products.Keys - {id}
              && (forall k :: k in r.store.products ==> r.store.products[k] == s.products[k])
              && r.store.files == DeleteImageOf(s.files, s.products[id])
    ensures Wf(s) ==> Wf(r.store)
  {
    if !IsAdmin(caller) then Step(s, Forbid)
    else if id !in s.products then Step(s, Success)
    else Step(s.(products := s.products - {id}, files := DeleteImageOf(s.files, s.products[id])), Success)
  }

  /** The lock state the user list shows: lockout enabled and an expiry in the
      future. A null expiry compares as not later than now. */
  predicate IsLockedOut(u: User, now: int) {
    u.lockoutEnabled && u.lockoutEnd.Some? && u.lockoutEnd.value > now
  }

  datatype UserRow = UserRow(userId: string, email: string, fullName: string, roles: set<string>, isLockedOut: bool)

  /** GET Admin/Users: one row per user with its roles and lock state. */
  function Users(s: Store, caller: Caller, now: int): (r: Page<map<string, UserRow>>)
    ensures r.Refused? <==> !IsAdmin(caller)
    ensures r.Page? ==> r.model.Keys == s.users.Keys
    ensures r.Page? ==> forall u :: u in s.users ==>
              && r.model[u].roles == s.users[u].roles
              && r.model[u].userId == s.users[u].id
              && r.model[u].email == s.users[u].email
              && r.model[u].fullName == s.users[u].fullName
              && r.model[u].isLockedOut == IsLockedOut(s.users[u], now)
  {
    if !IsAdmin(caller) then Refused(Forbid)
    else
      Page(map u | u in s.users ::
        var v := s.users[u];
        UserRow(v.id, v.email, v.fullName, v.roles, IsLockedOut(v, now)))
  }

  datatype UserDetails = UserDetails(user: User, isLockedOut: bool, products: seq<Product>)

  /** GET Admin/UserDetails/id: the user, its lock state and all its listings
      (in no particular order). */
  function UserDetailsPage(s: Store, caller: Caller, id: string, now: int): (r: Page<UserDetails>)
    ensures r.Page? <==> IsAdmin(caller) && id in s.users
    ensures r.Refused? ==> r.outcome == (if IsAdmin(caller) then NotFound else Forbid)
    ensures r.Page? ==>
              && r.model.user == s.users[id]
              && r.model.isLockedOut == IsLockedOut(s.users[id], now)
              && (forall p :: p in r.model.products <==> p in s.products.Values && p.userId == id)
              && |r.model.products| == |set k | k in s.products && s.products[k].userId == id|
  {
    if !IsAdmin(caller) then Refused(Forbid)
    else if id !in s.users then Refused(NotFound)
    else
      var keep := (p: Product) => p.userId == id;
      WhereValues(s.products, keep);
      assert Where(s.products, keep).Keys == set k | k in s.products && s.products[k].userId == id;
      Page(UserDetails(s.users[id], IsLockedOut(s.users[id], now), Rows(Where(s.products, keep))))
  }

  /** The flag is negated; the expiry becomes DateTimeOffset.MaxValue when the
      flag is now set and null when it is now cleared. Nothing else changes. */
  function ToggledLockout(u: User): (v: User)
    ensures v.lockoutEnabled == !u.lockoutEnabled
    ensures v.lockoutEnd == (if v.lockoutEnabled then Some(MaxInstant) else None)
    ensures v.(lockoutEnabled := u.lockoutEnabled, lockoutEnd := u.lockoutEnd) == u
  {
    var enabled := !u.lockoutEnabled;
    u.(lockoutEnabled := enabled, lockoutEnd := if enabled then Some(MaxInstant) else None)
  }

  /** The Admin role is added when absent and removed when present; every
      other role stays as it was. */
  function ToggledAdmin(u: User): (v: User)
    ensures AdminRole in v.roles <==> AdminRole !in u.roles
    ensures v.roles - {AdminRole} == u.roles - {AdminRole}
    ensures v.(roles := u.roles) == u
  {
    if AdminRole in u.roles then u.(roles := u.roles - {AdminRole})
    else u.(roles := u.roles + {AdminRole})
  }

  /** POST Admin/ToggleUserStatus/id: an unknown id changes nothing. */
  function ToggleUserStatus(s: Store, caller: Caller, id: string): (r: Step)
    ensures r.store.productIdentity == s.productIdentity && r.store.categoryIdentity == s.categoryIdentity
    ensures !IsAdmin(caller) ==> r == Step(s, Forbid)
    ensures IsAdmin(caller) ==> r.outcome == Success
    ensures r.store.products == s.products && r.store.categories == s.categories && r.store.files == s.files
    ensures r.store.users.Keys == s.users.Keys
    ensures forall u :: u in s.users && u != id ==> r.store.users[u] == s.users[u]
    ensures id in s.users ==>
              r.store.users[id] == if IsAdmin(caller) then ToggledLockout(s.users[id]) else s.users[id]
    ensures Wf(s) ==> Wf(r.store)
  {
    if !IsAdmin(caller) then Step(s, Forbid)
    else if id !in s.users then Step(s, Success)
    else Step(s.(users := s.users[id := ToggledLockout(s.users[id])]), Success)
  }

  /** POST Admin/ToggleAdminRole/id: an unknown id changes nothing. There is no
      guard against removing the last administrator, or the caller's own role. */
  function ToggleAdminRole(s: Store, caller: Caller, id: string): (r: Step)
    ensures r.store.productIdentity == s.productIdentity && r.store.categoryIdentity == s.categoryIdentity
    ensures !IsAdmin(caller) ==> r == Step(s, Forbid)
    ensures IsAdmin(caller) ==> r.outcome == Success
    ensures r.store.products == s.products && r.store.categories == s.categories && r.store.files == s.files
    ensures r.store.users.Keys == s.users.Keys
    ensures forall u :: u in s.users && u != id ==> r.store.users[u] == s.users[u]
    ensures id in s.users ==>
              r.store.users[id] == if IsAdmin(caller) then ToggledAdmin(s.users[id]) else s.users[id]
    ensures Wf(s) ==> Wf(r.store)
  {
    if !IsAdmin(caller) then Step(s, Forbid)
    else if id !in s.users then Step(s, Success)
    else Step(s.(users := s.users[id := ToggledAdmin(s.users[id])]), Success)
  }

  /** Toggling the status twice restores the flag, but restores the user only
      when the expiry already agreed with the flag (MaxValue when set, null
      when cleared). */
  lemma ToggleLockoutTwice(u: User)
    ensures ToggledLockout(ToggledLockout(u)).lockoutEnabled == u.lockoutEnabled
    ensures ToggledLockout(ToggledLockout(u)) == u <==>
              u.lockoutEnd == (if u.lockoutEnabled then Some(MaxInstant) else None)
  {
    var v := ToggledLockout(ToggledLockout(u));
    if u.lockoutEnd == (if u.lockoutEnabled then Some(MaxInstant) else None) {
      assert v == u;
    }
  }

  /** Right after a toggle, at any instant before DateTimeOffset.MaxValue, the
      user is shown as locked out exactly when the new flag is set. */
  lemma LockedOutAfterToggleIffEnabled(u: User, now: int)
    requires now < MaxInstant
    ensures IsLockedOut(ToggledLockout(u), now) <==> ToggledLockout(u).lockoutEnabled
  {
  }

  /** A user as registration leaves it (lockout allowed, no expiry) is shown as
      not locked; the first toggle clears the flag and still shows it unlocked,
      and the second locks it. So two toggles do not restore the lock state. */
  lemma FreshUserIsLockedOnlyBySecondToggle(u: User, now: int)
    requires u.lockoutEnabled && u.lockoutEnd == None
    requires now < MaxInstant
    ensures !IsLockedOut(u, now)
    ensures !IsLockedOut(ToggledLockout(u), now)
    ensures IsLockedOut(ToggledLockout(ToggledLockout(u)), now)
  {
  }

  lemma ToggledAdminTwice(u: User)
    ensures ToggledAdmin(ToggledAdmin(u)) == u
  {
    assert ToggledAdmin(ToggledAdmin(u)).roles == u.roles;
  }

  /** ToggleAdminRole is its own inverse on the whole store. */
  lemma ToggleAdminRoleTwiceRestores(s: Store, caller: Caller, id: string)
    ensures ToggleAdminRole(ToggleAdminRole(s, caller, id).store, caller, id).store == s
  {
    if IsAdmin(caller) && id in s.users {
      ToggledAdminTwice(s.users[id]);
      var s1 := ToggleAdminRole(s, caller, id).store;
      assert s1 == s.(users := s.users[id := ToggledAdmin(s.users[id])]);
      assert s.users[id := s.users[id]] == s.users;
    }
  }

  /** The guard is what keeps the foreign keys intact: removing a category that
      some listing uses would leave that listing pointing nowhere. */
  lemma RemovingCategoryInUseBreaksWf(s: Store, id: int)
    requires InUse(s, id)
    ensures !Wf(s.(categories := s.categories - {id}))
  {
    var k :| k in s.products && s.products[k].categoryId == id;
    assert s.products[k].categoryId !in (s.categories - {id});
  }

  /** A new category has no listings: the identity key it receives is not a
      key any listing can name in a well-formed store. */
  lemma NewCategoryHasNoProducts(s: Store, caller: Caller, form: Category)
    requires Wf(s)
    requires IsAdmin(caller) && CategoryValid(form) && form.id == 0
    ensures !InUse(CreateCategory(s, caller, form).store, s.categoryIdentity)
  {
    var id := s.categoryIdentity;
    forall k | k in s.products ensures s.products[k].categoryId != id {
      assert s.products[k].categoryId in s.categories;
    }
  }

  lemma DeleteUndoesAddCategory(s: Store, caller: Caller, c: Category)
    requires IsAdmin(caller) && c.id !in s.categories && !InUse(s, c.id)
    ensures DeleteCategory(s.(categories := s.categories[c.id := c]), caller, c.id) == Step(s, Success)
  {
    var t := s.(categories := s.categories[c.id := c]);
    assert !InUse(t, c.id);
    assert t.categories - {c.id} == s.categories;
  }

  /** Creating a category and then deleting it gives back the original store,
      except that the identity column has moved on: the deleted id is not
      handed out again. */
  lemma CreateCategoryThenDeleteRestores(s: Store, caller: Caller, form: Category)
    requires Wf(s)
    requires IsAdmin(caller) && CategoryValid(form) && form.id == 0
    ensures DeleteCategory(CreateCategory(s, caller, form).store, caller, s.categoryIdentity)
              == Step(s.(categoryIdentity := s.categoryIdentity + 1), Success)
  {
    var id := s.categoryIdentity;
    var s1 := CreateCategory(s, caller, form).store;
    var t := s.(categoryIdentity := id + 1);
    assert s1 == t.(categories := t.categories[id := form.(id := id)]);
    forall k | k in s.products ensures s.products[k].categoryId != id {
      assert s.products[k].categoryId in s.categories;
    }
    DeleteUndoesAddCategory(t, caller, form.(id := id));
  }

  /** For the owner of a listing, the user-side Delete and the moderation
      DeleteProduct leave the same store. */
  lemma OwnerDeleteAgreesWithModeration(s: Store, owner: Caller, admin: Caller, id: int)
    requires id in s.products && s.products[id].userId == owner.id
    requires IsAdmin(admin)
    ensures ProductsController.Delete(s, owner, id) == DeleteProduct(s, admin, id)
  {
  }
}

=== FILE: home_controller.dfy ===
/**
 The home page: the newest listings of the whole catalogue.
 */
module HomeController {
  import opened Models
  import opened Listing

  /** The number of listings the home page shows. */
  const HomeCount := 12

  /** GET Home: the twelve newest listings (all of them when there are fewer),
      newest first; no listing left out is newer than one shown. */
  function Index(s: Store): (r: seq<Product>)
    ensures |r| == Min(HomeCount, |s.products|)
    ensures NewestFirst(r)
    ensures forall p :: p in r ==> p in s.products.Values
    ensures forall p :: p in s.products.Values && p !in r ==>
              forall i :: 0 <= i < |r| ==> p.uploadDate <= r[i].uploadDate
    ensures KeyedById(s.products) ==> Distinct(r)
    ensures DrawnFrom(r, s.products)
  {
    Newest(s.products, HomeCount)
  }
}

=== FILE: listing.dfy ===
/**
 The shape every product query of the controllers shares: select the rows of
 the product table that pass a filter, order them by upload date, newest
 first, and optionally keep only the first few. The database gives no order to
 rows with equal upload dates, so the contracts fix only the date order.
 */
module Listing {
  import opened Models
  import opened Tables

  /** No row occurs twice. */
  ghost predicate Distinct(s: seq<Product>) {
    forall i, j :: 0 <= i < j < |s| ==> s[i] != s[j]
  }

  /** Each row of `r` occurs in `r` at most as often as the table holds it. */
  ghost predicate DrawnFrom(r: seq<Product>, t: map<int, Product>) {
    forall p :: p in multiset(r) ==> multiset(r)[p] <= multiset(Rows(t))[p]
  }

  /** Every row is stored under its own id, as in a well-formed store. */
  ghost predicate KeyedById(t: map<int, Product>) {
    forall k :: k in t ==> t[k].id == k
  }

  /** The rows of a table, one per key, in ascending key order. */
  function Rows(t: map<int, Product>): (r: seq<Product>)
    ensures |r| == |t|
    ensures forall p :: p in r <==> p in t.Values
    ensures KeyedById(t) ==> Distinct(r)
  {
    var ks := SortedKeys(t.Keys);
    var r := seq(|ks|, i requires 0 <= i < |ks| => t[ks[i]]);
    RowsCover(t, ks, r);
    RowsDistinct(t, ks, r);
    r
  }

  /** Rows read off strictly ascending keys are distinct when each row
      carries its key as its id. */
  lemma RowsDistinct(t: map<int, Product>, ks: seq<int>, r: seq<Product>)
    requires forall i :: 0 <= i < |ks| ==> ks[i] in t
    requires forall i, j :: 0 <= i < j < |ks| ==> ks[i] < ks[j]
    requires |r| == |ks| && forall i :: 0 <= i < |ks| ==> r[i] == t[ks[i]]
    ensures KeyedById(t) ==> Distinct(r)
  {
    if KeyedById(t) {
      forall i, j | 0 <= i < j < |r| ensures r[i] != r[j] {
        assert r[i].id == ks[i] && r[j].id == ks[j];
      }
    }
  }

  lemma {:induction false} DistinctCountsOnce(s: seq<Product>)
    requires Distinct(s)
    ensures forall p :: multiset(s)[p] <= 1
    decreases |s|
  {
    if s != [] {
      DistinctCountsOnce(s[1..]);
      assert s == [s[0]] + s[1..];
      assert s[0] !in s[1..] by {
        forall i | 0 <= i < |s[1..]| ensures s[1..][i] != s[0] {
          assert s[1..][i] == s[i + 1];
        }
      }
    }
  }

  lemma RepeatCountsTwice(s: seq<Product>, i: int, j: int)
    requires 0 <= i < j < |s| && s[i] == s[j]
    ensures multiset(s)[s[i]] >= 2
  {
    assert s == s[..i] + [s[i]] + s[i + 1..j] + [s[j]] + s[j + 1..];
  }

  /** A sequence whose rows are among those of a sequence without repeats has
      no repeats either. */
  lemma SubMultisetOfDistinct(a: seq<Product>, b: seq<Product>)
    requires multiset(a) <= multiset(b)
    ensures Distinct(b) ==> Distinct(a)
  {
    if Distinct(b) {
      DistinctCountsOnce(b);
      forall i, j | 0 <= i < j < |a| ensures a[i] != a[j] {
        if a[i] == a[j] {
          RepeatCountsTwice(a, i, j);
          assert false;
        }
      }
    }
  }

  lemma ValueHasKey(t: map<int, Product>, p: Product) returns (k: int)
    requires p in t.Values
    ensures k in t && t[k] == p
  {
    if forall k :: k in t ==> t[k] != p {
      assert false;
    }
    k :| k in t && t[k] == p;
  }

  lemma RowsCover(t: map<int, Product>, ks: seq<int>, r: seq<Product>)
    requires forall i :: 0 <= i < |ks| ==> ks[i] in t
    requires forall k :: k in t ==> k in ks
    requires |r| == |ks| && forall i :: 0 <= i < |ks| ==> r[i] == t[ks[i]]
    ensures forall p :: p in r <==> p in t.Values
  {
    forall p | p in t.Values ensures p in r {
      var k := ValueHasKey(t, p);
      var i :| 0 <= i < |ks| && ks[i] == k;
      assert r[i] == p;
    }
  }

  /** The rows that pass `keep`, under their own keys (a Where clause). */
  function Where(t: map<int, Product>, keep: Product -> bool): (w: map<int, Product>)
    ensures forall k :: k in w <==> k in t && keep(t[k])
    ensures forall k :: k in w ==> w[k] == t[k]
  {
    map k | k in t && keep(t[k]) :: t[k]
  }

  lemma WhereValues(t: map<int, Product>, keep: Product -> bool)
    ensures forall p :: p in Where(t, keep).Values <==> p in t.Values && keep(p)
  {
    var w := Where(t, keep);
    forall p | p in t.Values && keep(p) ensures p in w.Values {
      var k := ValueHasKey(t, p);
      assert w[k] == p;
    }
  }

  /** OrderByDescending(p => p.UploadDate): no product precedes a newer one. */
  ghost predicate NewestFirst(s: seq<Product>) {
    forall i, j :: 0 <= i < j < |s| ==> s[i].uploadDate >= s[j].uploadDate
  }

  /** A row no older than any row of a date-ordered sequence may go in front. */
  lemma PrependNewest(x: Product, t: seq<Product>)
    requires NewestFirst(t)
    requires forall y :: y in t ==> y.uploadDate <= x.uploadDate
    ensures NewestFirst([x] + t)
  {
    forall i, j | 0 <= i < j < |[x] + t|
      ensures ([x] + t)[i].uploadDate >= ([x] + t)[j].uploadDate
    {
      if i > 0 {
        assert ([x] + t)[i] == t[i - 1];
      }
      assert ([x] + t)[j] == t[j - 1];
      assert t[j - 1] in t;
    }
  }

  /** The head of a date-ordered sequence is its newest row. */
  lemma HeadIsNewest(s: seq<Product>)
    requires NewestFirst(s) && s != []
    ensures forall y :: y in s ==> y.uploadDate <= s[0].uploadDate
  {
    forall y | y in s ensures y.uploadDate <= s[0].uploadDate {
      var j :| 0 <= j < |s| && s[j] == y;
    }
  }

  function InsertByDate(p: Product, s: seq<Product>): (r: seq<Product>)
    requires NewestFirst(s)
    ensures NewestFirst(r)
    ensures multiset(r) == multiset(s) + multiset{p}
  {
    if s == [] then [p]
    else if p.uploadDate >= s[0].uploadDate then
      HeadIsNewest(s);
      PrependNewest(p, s);
      [p] + s
    else
      var rest := InsertByDate(p, s[1..]);
      assert s == [s[0]] + s[1..];
      assert NewestFirst(s[1..]) by {
        forall i, j | 0 <= i < j < |s[1..]| ensures s[1..][i].uploadDate >= s[1..][j].uploadDate {
          assert s[1..][i] == s[i + 1] && s[1..][j] == s[j + 1];
        }
      }
      HeadIsNewest(s);
      forall x | x in rest ensures x.uploadDate <= s[0].uploadDate {
        assert x in multiset(rest);
        if x != p {
          assert x in multiset(s[1..]);
          assert x in s;
        }
      }
      PrependNewest(s[0], rest);
      [s[0]] + rest
  }

  /** Sorts by upload date, newest first, keeping every row. */
  function SortNewestFirst(s: seq<Product>): (r: seq<Product>)
    ensures NewestFirst(r)
    ensures multiset(r) == multiset(s)
  {
    if s == [] then []
    else
      assert s == [s[0]] + s[1..];
      InsertByDate(s[0], SortNewestFirst(s[1..]))
  }

  /** The rows passing `keep`, newest first: a Where followed by OrderByDescending. */
  function Query(t: map<int, Product>, keep: Product -> bool): (r: seq<Product>)
    ensures NewestFirst(r)
    ensures forall p :: p in r <==> p in t.Values && keep(p)
    ensures |r| == |set k | k in t && keep(t[k])|
  {
    assert Where(t, keep).Keys == set k | k in t && keep(t[k]);
    var rows := Rows(Where(t, keep));
    var r := SortNewestFirst(rows);
    WhereValues(t, keep);
    SameMembers(r, rows);
    r
  }

  lemma SameMembers(a: seq<Product>, b: seq<Product>)
    requires multiset(a) == multiset(b)
    ensures |a| == |b|
    ensures forall p :: p in a <==> p in b
  {
    assert |multiset(a)| == |multiset(b)|;
    forall p ensures p in a <==> p in b {
      assert p in a <==> p in multiset(a);
      assert p in b <==> p in multiset(b);
    }
  }

  /** Every row of the table, newest first. */
  function AllNewestFirst(t: map<int, Product>): (r: seq<Product>)
    ensures NewestFirst(r)
    ensures forall p :: p in r <==> p in t.Values
    ensures |r| == |t|
    ensures multiset(r) == multiset(Rows(t))
  {
    var rows := Rows(t);
    var r := SortNewestFirst(rows);
    SameMembers(r, rows);
    r
  }

  function Min(a: int, b: int): int {
    if a < b then a else b
  }

  /** OrderByDescending(UploadDate).Take(n): the n newest rows, newest first.
      Each row appears at most as often as the table holds it, and a row left
      out is no newer than any row kept. */
  function Newest(t: map<int, Product>, n: nat): (r: seq<Product>)
    ensures |r| == Min(n, |t|)
    ensures NewestFirst(r)
    ensures forall p :: p in r ==> p in t.Values
    ensures forall p :: p in t.Values && p !in r ==>
              forall i :: 0 <= i < |r| ==> p.uploadDate <= r[i].uploadDate
    ensures KeyedById(t) ==> Distinct(r)
    ensures DrawnFrom(r, t)
  {
    var all := AllNewestFirst(t);
    var m := Min(n, |all|);
    var r := all[..m];
    TakeKeepsNewest(t, all, m);
    TakeKeepsRows(t, all, m);
    r
  }

  lemma PrefixIsSubMultiset(s: seq<Product>, n: nat)
    requires n <= |s|
    ensures multiset(s[..n]) <= multiset(s)
  {
    assert s == s[..n] + s[n..];
  }

  /** A prefix of a reordering of the table's rows holds each row at most as
      often as the table does, and so has no repeats when the table has none. */
  lemma TakeKeepsRows(t: map<int, Product>, all: seq<Product>, n: nat)
    requires n <= |all|
    requires multiset(all) == multiset(Rows(t))
    ensures KeyedById(t) ==> Distinct(all[..n])
    ensures DrawnFrom(all[..n], t)
  {
    var rows := Rows(t);
    PrefixIsSubMultiset(all, n);
    SubMultisetOfDistinct(all[..n], rows);
  }

  /** A prefix of the date-ordered rows of `t` holds rows of `t`, in date order,
      and every row of `t` it leaves out is no newer than any row it keeps. */
  lemma TakeKeepsNewest(t: map<int, Product>, all: seq<Product>, n: nat)
    requires n <= |all|
    requires NewestFirst(all)
    requires forall p :: p in all <==> p in t.Values
    ensures NewestFirst(all[..n])
    ensures forall p :: p in all[..n] ==> p in t.Values
    ensures forall p :: p in t.Values && p !in all[..n] ==>
              forall i :: 0 <= i < |all[..n]| ==> p.uploadDate <= all[..n][i].uploadDate
  {
    var r := all[..n];
    forall p | p in r ensures p in t.Values {
      var i :| 0 <= i < |r| && r[i] == p;
      assert all[i] == p;
    }
    forall p | p in t.Values && p !in r
      ensures forall i :: 0 <= i < |r| ==> p.uploadDate <= r[i].uploadDate
    {
      var j :| 0 <= j < |all| && all[j] == p;
      assert forall i :: 0 <= i < n ==> all[i] in r;
    }
  }
}

=== FILE: models.dfy ===
/**
 The entities of the marketplace (Product, Category, the identity user), the
 validity their data-annotation attributes impose, the abstract store the
 controllers act on, and the results a controller action can produce.
 */
module Models {
  import opened Text

  datatype Option<T> = None | Some(value: T)

  /** Prices are decimal(18,2): they are held as a whole number of cents. */
  const MinPriceCents := 1                 // 0.01
  const MaxPriceCents := 100_000_000       // 1,000,000.00
  const TitleMaxLength := 200
  const DescriptionMaxLength := 2000
  const CategoryNameMaxLength := 100
  const CategoryDescriptionMaxLength := 500

  /** A listing. `userId` and `categoryId` are the foreign keys to the owner
      and the category; times are instants on one integer clock. */
  datatype Product = Product(
    id: int,
    title: string,
    description: string,
    price: int,
    imagePath: Option<string>,
    uploadDate: int,
    userId: string,
    categoryId: int)

  /** A string-length attribute together with [Required]. */
  predicate RequiredWithin(s: string, maxLength: nat) {
    Required(s) && Utf16Length(s) <= maxLength
  }

  /** The Range attribute on the price: 0.01 to 1,000,000 inclusive. */
  predicate ValidPrice(cents: int) {
    MinPriceCents <= cents <= MaxPriceCents
  }

  /** The annotations on Product: Title, Description, Price and UserId are
      required, with their lengths and range bounded. ImagePath is optional and
      unconstrained; CategoryId is a non-nullable integer and always present. */
  predicate ProductValid(p: Product) {
    && RequiredWithin(p.title, TitleMaxLength)
    && RequiredWithin(p.description, DescriptionMaxLength)
    && ValidPrice(p.price)
    && Required(p.userId)
  }

  datatype Category = Category(id: int, name: string, description: Option<string>)

  /** The annotations on Category: a required name of at most 100 characters
      and an optional description of at most 500. */
  predicate CategoryValid(c: Category) {
    && RequiredWithin(c.name, CategoryNameMaxLength)
    && (c.description.Some? ==> Utf16Length(c.description.value) <= CategoryDescriptionMaxLength)
  }

  /** The identity user with the state the application reads and writes:
      its role memberships and its lockout flag and expiry. */
  datatype User = User(
    id: string,
    email: string,
    fullName: string,
    roles: set<string>,
    lockoutEnabled: bool,
    lockoutEnd: Option<int>)

  const AdminRole := "Admin"
  const UserRole := "User"

  /** The whole persistent state: the three tables, the set of public paths of
      the files under the upload directory, and the next value of the identity
      column of Products and of Categories. An identity value is handed out
      once: deleting the row that holds it does not make it available again. */
  datatype Store = Store(
    products: map<int, Product>,
    categories: map<int, Category>,
    users: map<string, User>,
    files: set<string>,
    productIdentity: int,
    categoryIdentity: int)

  /** Every row sits under its own key, below its table's identity counter;
      every product's foreign keys resolve, user ids are not blank, and every
      stored record satisfies its annotations. */
  ghost predicate Wf(s: Store) {
    && (forall k :: k in s.products ==> s.products[k].id == k)
    && (forall k :: k in s.products ==> k < s.productIdentity)
    && (forall k :: k in s.categories ==> k < s.categoryIdentity)
    && (forall k :: k in s.products ==> s.products[k].categoryId in s.categories)
    && (forall k :: k in s.products ==> s.products[k].userId in s.users)
    && (forall k :: k in s.products ==> ProductValid(s.products[k]))
    && (forall k :: k in s.categories ==> s.categories[k].id == k)
    && (forall k :: k in s.categories ==> CategoryValid(s.categories[k]))
    && (forall u :: u in s.users ==> s.users[u].id == u && Required(u))
  }

  /** The authenticated caller: its user id and the roles in its sign-in claims. */
  datatype Caller = Caller(id: string, roles: set<string>)

  predicate IsAdmin(caller: Caller) {
    AdminRole in caller.roles
  }

  /** Why a submitted form is sent back to its view. */
  datatype Rejection = InvalidFields | FileTooLarge | FileTypeNotAllowed

  /** The result of a state-changing action: a redirect after success, the
      framework's NotFound and Forbid results, a form sent back, a redirect
      carrying a conflict message, or an exception that escapes the action. */
  datatype Outcome = Success | NotFound | Forbid | Rejected(reason: Rejection) | Conflict | Failed

  /** The store after an action together with what the action returned. */
  datatype Step = Step(store: Store, outcome: Outcome)

  /** The result of a read-only action: the page model, or a refusal. */
  datatype Page<T> = Page(model: T) | Refused(outcome: Outcome)
}

=== FILE: products_controller.dfy ===
/**
 The listing actions: the public catalogue with its filters, the caller's own
 listings, the details page, and the owner's create, edit and delete. Each
 action is a function of the store, the authenticated caller, the bound form
 and the runtime's choices (clock, GUID, disk outcome) to the next store and
 the action's result. ModelState is computed when the form is bound, so the
 annotations are checked on the form as submitted.
 */
module ProductsController {
  import opened Text
  import opened Models
  import opened Listing
  import opened Uploads

  /** The query string of Index; an absent or empty search is "". Prices are in cents. */
  datatype ListingFilter = ListingFilter(
    search: string,
    categoryId: Option<int>,
    minPrice: Option<int>,
    maxPrice: Option<int>)

  /** The search applies only when the string is non-empty (a search made of
      spaces still filters), and matches the title or the description. */
  predicate MatchesSearch(search: string, p: Product) {
    search == "" || Contains(p.title, search) || Contains(p.description, search)
  }

  predicate MatchesCategory(categoryId: Option<int>, p: Product) {
    categoryId.None? || p.categoryId == categoryId.value
  }

  predicate MatchesMinPrice(minPrice: Option<int>, p: Product) {
    minPrice.None? || p.price >= minPrice.value
  }

  predicate MatchesMaxPrice(maxPrice: Option<int>, p: Product) {
    maxPrice.None? || p.price <= maxPrice.value
  }

  /** The four criteria, each optional, combined with AND. */
  predicate Matches(f: ListingFilter, p: Product) {
    && MatchesSearch(f.search, p)
    && MatchesCategory(f.categoryId, p)
    && MatchesMinPrice(f.minPrice, p)
    && MatchesMaxPrice(f.maxPrice, p)
  }

  /** GET Products: every product meeting all the supplied criteria, each row
      once, newest first. */
  function Index(s: Store, f: ListingFilter): (r: seq<Product>)
    ensures NewestFirst(r)
    ensures forall p :: p in r <==> p in s.products.Values && Matches(f, p)
    ensures |r| == |set k | k in s.products && Matches(f, s.products[k])|
  {
    var keep := (p: Product) => Matches(f, p);
    assert (set k | k in s.products && keep(s.products[k])) == set k | k in s.products && Matches(f, s.products[k]);
    Query(s.products, keep)
  }

  /** GET Products/MyProducts: exactly the caller's listings, newest first. */
  function MyProducts(s: Store, caller: Caller): (r: seq<Product>)
    ensures NewestFirst(r)
    ensures forall p :: p in r <==> p in s.products.Values && p.userId == caller.id
    ensures |r| == |set k | k in s.products && s.products[k].userId == caller.id|
  {
    var keep := (p: Product) => p.userId == caller.id;
    assert (set k | k in s.products && keep(s.products[k])) == set k | k in s.products && s.products[k].userId == caller.id;
    Query(s.products, keep)
  }

  /** GET Products/Details/id: NotFound for a missing id or an unknown product. */
  function Details(s: Store, id: Option<int>): (r: Page<Product>)
    ensures r.Page? <==> id.Some? && id.value in s.products
    ensures r.Page? ==> r.model == s.products[id.value]
    ensures r.Refused? ==> r.outcome == NotFound
  {
    if id.None? || id.value !in s.products then Refused(NotFound)
    else Page(s.products[id.value])
  }

  /** GET Products/Edit/id: the form only for the owner. A missing id is
      NotFound; an unknown product, like another owner's, is Forbid. */
  function EditPage(s: Store, caller: Caller, id: Option<int>): (r: Page<Product>)
    ensures id.None? ==> r == Refused(NotFound)
    ensures r.Page? <==> id.Some? && id.value in s.products && s.products[id.value].userId == caller.id
    ensures r.Page? ==> r.model == s.products[id.value]
    ensures id.Some? && r.Refused? ==> r.outcome == Forbid
  {
    if id.None? then Refused(NotFound)
    else if id.value !in s.products || s.products[id.value].userId != caller.id then Refused(Forbid)
    else Page(s.products[id.value])
  }

  /** SaveChanges throws when the row cannot be inserted: an explicit id for
      the identity column, a key already taken (a primary-key violation, which
      a well-formed store rules out), or a foreign key with no target. */
  predicate InsertFails(s: Store, row: Product, submittedId: int) {
    submittedId != 0 || row.id in s.products || row.categoryId !in s.categories || row.userId !in s.users
  }

  lemma InsertKeepsWf(s: Store, row: Product, files: set<string>)
    requires row.id == s.productIdentity && row.id !in s.products
    requires row.categoryId in s.categories && row.userId in s.users
    requires RequiredWithin(row.title, TitleMaxLength)
    requires RequiredWithin(row.description, DescriptionMaxLength)
    requires ValidPrice(row.price)
    ensures Wf(s) ==> Wf(s.(products := s.products[row.id := row], files := files, productIdentity := row.id + 1))
  {
  }

  /** Adding the row under the identity value and saving: the file set is
      already `files`, whether the insert succeeds or throws. The identity
      column moves on only when the row is stored. */
  function Insert(s: Store, row: Product, submittedId: int, files: set<string>): (r: Step)
    requires row.id == s.productIdentity
    requires RequiredWithin(row.title, TitleMaxLength)
    requires RequiredWithin(row.description, DescriptionMaxLength)
    requires ValidPrice(row.price)
    ensures r.outcome == Success || r.outcome == Failed
    ensures r.outcome.Success? <==> !InsertFails(s, row, submittedId)
    ensures r.store.categories == s.categories && r.store.users == s.users && r.store.files == files
    ensures r.store.categoryIdentity == s.categoryIdentity
    ensures r.outcome.Success? ==>
              r.store.products == s.products[row.id := row] && r.store.productIdentity == row.id + 1
    ensures !r.outcome.Success? ==> r.store.products == s.products && r.store.productIdentity == s.productIdentity
    ensures Wf(s) ==> Wf(r.store)
  {
    if InsertFails(s, row, submittedId) then Step(s.(files := files), Failed)
    else
      InsertKeepsWf(s, row, files);
      Step(s.(products := s.products[row.id := row], files := files, productIdentity := row.id + 1), Success)
  }

  /** The row Create inserts: the submitted form with the owner and the upload
      date replaced by the server's values and the image path set. */
  function NewListing(form: Product, id: int, caller: Caller, now: int, imagePath: Option<string>): Product {
    form.(id := id, userId := caller.id, uploadDate := now, imagePath := imagePath)
  }

  /** The public path Create or Edit gives an accepted upload. */
  function SavedPath(image: Option<Upload>, env: StorageEnv): string
    requires image.Some?
  {
    UploadPath(env.freshName, ExtensionOf(image.value))
  }

  /** Whether the upload, if one is supplied, passes both checks. */
  predicate ImageAcceptable(image: Option<Upload>) {
    Supplied(image) ==> CheckImage(image.value).Accepted?
  }

  /** The conditions under which the insert Create ends with succeeds. */
  predicate CanInsert(s: Store, caller: Caller, form: Product) {
    form.id == 0 && s.productIdentity !in s.products && form.categoryId in s.categories && caller.id in s.users
  }

  /** POST Products/Create. */
  function Create(s: Store, caller: Caller, form: Product, image: Option<Upload>, env: StorageEnv, now: int): (r: Step)
    ensures r.store.categories == s.categories && r.store.users == s.users
    ensures r.store.categoryIdentity == s.categoryIdentity
    ensures r.outcome == Rejected(InvalidFields) <==> !ProductValid(form)
    ensures r.outcome == Rejected(FileTooLarge) <==>
              ProductValid(form) && Supplied(image) && image.value.length > MaxImageBytes
    ensures r.outcome == Rejected(FileTypeNotAllowed) <==>
              && ProductValid(form) && Supplied(image) && image.value.length <= MaxImageBytes
              && ExtensionOf(image.value) !in AllowedExtensions
    ensures r.outcome.Rejected? ==> r.store == s
    ensures r.outcome.Success? <==>
              && ProductValid(form) && ImageAcceptable(image)
              && (Supplied(image) ==> env.writeSucceeds)
              && CanInsert(s, caller, form)
    // an accepted upload whose write fails: nothing has changed
    ensures ProductValid(form) && ImageAcceptable(image) && Supplied(image) && !env.writeSucceeds ==>
              r == Step(s, Failed)
    // the insert throws after the upload, if any, is on disk
    ensures ProductValid(form) && ImageAcceptable(image) && (Supplied(image) ==> env.writeSucceeds)
            && !CanInsert(s, caller, form) ==>
              && r.outcome == Failed
              && r.store.files == (if Supplied(image) then s.files + {SavedPath(image, env)} else s.files)
    ensures !r.outcome.Success? ==> r.store.products == s.products && r.store.productIdentity == s.productIdentity
    ensures r.outcome.Success? ==>
              var id := s.productIdentity;
              && r.store.productIdentity == id + 1
              && r.store.products.Keys == s.products.Keys + {id}
              && id !in s.products
              && (forall k :: k in s.products ==> r.store.products[k] == s.products[k])
              && r.store.products[id].id == id
              && r.store.products[id].userId == caller.id
              && r.store.products[id].uploadDate == now
              && r.store.products[id].title == form.title
              && r.store.products[id].description == form.description
              && r.store.products[id].price == form.price
              && r.store.products[id].categoryId == form.categoryId
    ensures r.outcome.Success? && Supplied(image) ==>
              && r.store.products[s.productIdentity].imagePath == Some(SavedPath(image, env))
              && r.store.files == s.files + {SavedPath(image, env)}
    ensures r.outcome.Success? && !Supplied(image) ==>
              && r.store.products[s.productIdentity].imagePath == form.imagePath
              && r.store.files == s.files
    ensures Wf(s) ==> Wf(r.store)
  {
    if !ProductValid(form) then Step(s, Rejected(InvalidFields))
    else if Supplied(image) && CheckImage(image.value).Declined? then
      Step(s, Rejected(CheckImage(image.value).reason))
    else if Supplied(image) && !env.writeSucceeds then Step(s, Failed)
    else
      var files := if Supplied(image) then s.files + {SavedPath(image, env)} else s.files;
      var imagePath := if Supplied(image) then Some(SavedPath(image, env)) else form.imagePath;
      Publish(s, caller, form, imagePath, files, now)
  }

  /** The part of Create after the checks: the form becomes a row under the
      identity column's next value, owned by the caller and dated now. */
  function Publish(s: Store, caller: Caller, form: Product, imagePath: Option<string>, files: set<string>, now: int): (r: Step)
    requires ProductValid(form)
    ensures r.outcome == Success || r.outcome == Failed
    ensures r.outcome.Success? <==> CanInsert(s, caller, form)
    ensures r.store.categories == s.categories && r.store.users == s.users && r.store.files == files
    ensures r.store.categoryIdentity == s.categoryIdentity
    ensures !r.outcome.Success? ==> r.store.products == s.products && r.store.productIdentity == s.productIdentity
    ensures r.outcome.Success? ==>
              var id := s.productIdentity;
              && r.store.products == s.products[id := NewListing(form, id, caller, now, imagePath)]
              && r.store.productIdentity == id + 1
    ensures Wf(s) ==> Wf(r.store)
  {
    Insert(s, NewListing(form, s.productIdentity, caller, now, imagePath), form.id, files)
  }

  /** The stored row after an edit: only Title, Description, Price and
      CategoryId come from the form. */
  function Edited(existing: Product, form: Product): Product {
    existing.(title := form.title, description := form.description,
              price := form.price, categoryId := form.categoryId)
  }

  /** Replacing a listing's row keeps the store well-formed when the new row
      keeps the key and owner, satisfies the annotations, and names a category. */
  lemma UpdateKeepsWf(s: Store, id: int, row: Product, files: set<string>)
    requires id in s.products && row.id == s.products[id].id && row.userId == s.products[id].userId
    requires row.categoryId in s.categories
    requires RequiredWithin(row.title, TitleMaxLength)
    requires RequiredWithin(row.description, DescriptionMaxLength)
    requires ValidPrice(row.price)
    ensures Wf(s) ==> Wf(s.(products := s.products[id := row], files := files))
  {
    if Wf(s) {
      assert ProductValid(s.products[id]);
    }
  }

  /** Updating the row and saving; a category id with no category fails the
      foreign key. The file set is already `files` either way. */
  function SaveEdit(s: Store, id: int, row: Product, files: set<string>): (r: Step)
    requires id in s.products && row.id == s.products[id].id && row.userId == s.products[id].userId
    requires RequiredWithin(row.title, TitleMaxLength)
    requires RequiredWithin(row.description, DescriptionMaxLength)
    requires ValidPrice(row.price)
    ensures r.outcome == Success || r.outcome == Failed
    ensures r.outcome.Success? <==> row.categoryId in s.categories
    ensures r.store.categories == s.categories && r.store.users == s.users && r.store.files == files
    ensures r.store.productIdentity == s.productIdentity && r.store.categoryIdentity == s.categoryIdentity
    ensures r.outcome.Success? ==> r.store.products == s.products[id := row]
    ensures !r.outcome.Success? ==> r.store.products == s.products
    ensures Wf(s) ==> Wf(r.store)
  {
    if row.categoryId !in s.categories then Step(s.(files := files), Failed)
    else
      UpdateKeepsWf(s, id, row, files);
      Step(s.(products := s.products[id := row], files := files), Success)
  }

  /** The upload branch of Edit: the new file is checked, the old file is
      deleted, the new one is written, and the row is saved with its path. */
  function ReplaceImage(s: Store, id: int, form: Product, u: Upload, env: StorageEnv): (r: Step)
    requires id in s.products && ProductValid(form)
    ensures r.store.categories == s.categories && r.store.users == s.users
    ensures r.store.productIdentity == s.productIdentity && r.store.categoryIdentity == s.categoryIdentity
    ensures r.outcome.Rejected? <==> CheckImage(u).Declined?
    ensures r.outcome.Rejected? ==> r.store == s && r.outcome.reason == CheckImage(u).reason
    ensures !r.outcome.Success? ==> r.store.products == s.products
    ensures CheckImage(u).Accepted? && !env.writeSucceeds ==>
              r.outcome == Failed && r.store.files == DeleteImageOf(s.files, s.products[id])
    ensures r.outcome.Success? <==>
              CheckImage(u).Accepted? && env.writeSucceeds && form.categoryId in s.categories
    // once written, the new file stays even when the save then fails
    ensures CheckImage(u).Accepted? && env.writeSucceeds ==>
              && r.store.files == DeleteImageOf(s.files, s.products[id]) + {UploadPath(env.freshName, ExtensionOf(u))}
              && (form.categoryId !in s.categories ==> r.outcome == Failed)
    ensures r.outcome.Success? ==>
              var path := UploadPath(env.freshName, ExtensionOf(u));
              && r.store.products == s.products[id := Edited(s.products[id].(imagePath := Some(path)), form)]
              && r.store.files == DeleteImageOf(s.files, s.products[id]) + {path}
    ensures Wf(s) ==> Wf(r.store)
  {
    match CheckImage(u)
    case Declined(reason) => Step(s, Rejected(reason))
    case Accepted(ext) =>
      // the old file goes before the new one is written
      var cleared := DeleteImageOf(s.files, s.products[id]);
      if !env.writeSucceeds then Step(s.(files := cleared), Failed)
      else
        var path := UploadPath(env.freshName, ext);
        SaveEdit(s, id, Edited(s.products[id].(imagePath := Some(path)), form), cleared + {path})
  }

  /** The caller owns the listing stored under `id`. */
  predicate Owns(s: Store, caller: Caller, id: int) {
    id in s.products && s.products[id].userId == caller.id
  }

  /** POST Products/Edit/id. */
  function Edit(s: Store, caller: Caller, id: int, form: Product, image: Option<Upload>, env: StorageEnv): (r: Step)
    ensures id != form.id ==> r == Step(s, NotFound)
    ensures id == form.id && !Owns(s, caller, id) ==> r == Step(s, Forbid)
    ensures r.store.categories == s.categories && r.store.users == s.users
    ensures r.store.productIdentity == s.productIdentity && r.store.categoryIdentity == s.categoryIdentity
    // the owner's submission is rejected, with nothing changed, for invalid
    // fields and then for a declined upload
    ensures id == form.id && Owns(s, caller, id) ==>
              (r.outcome == Rejected(InvalidFields) <==> !ProductValid(form))
    ensures id == form.id && Owns(s, caller, id) && !ProductValid(form) ==>
              r == Step(s, Rejected(InvalidFields))
    ensures id == form.id && Owns(s, caller, id) && ProductValid(form)
            && Supplied(image) && CheckImage(image.value).Declined? ==>
              r == Step(s, Rejected(CheckImage(image.value).reason))
    // an accepted upload whose write fails: the old file is already gone
    ensures id == form.id && Owns(s, caller, id) && ProductValid(form)
            && Supplied(image) && CheckImage(image.value).Accepted? && !env.writeSucceeds ==>
              && r.outcome == Failed
              && r.store.products == s.products
              && r.store.files == DeleteImageOf(s.files, s.products[id])
    // a valid edit naming a missing category fails at the save, after any
    // file replacement has been done
    ensures id == form.id && Owns(s, caller, id) && ProductValid(form) && ImageAcceptable(image)
            && (Supplied(image) ==> env.writeSucceeds) && form.categoryId !in s.categories ==>
              && r.outcome == Failed
              && r.store.products == s.products
              && r.store.files == (if Supplied(image) then DeleteImageOf(s.files, s.products[id]) + {SavedPath(image, env)}
                                   else s.files)
    ensures r.outcome.Rejected? ==> r.store == s
    ensures !r.outcome.Success? ==> r.store.products == s.products
    ensures r.outcome.Success? <==>
              && id == form.id && id in s.products && s.products[id].userId == caller.id
              && ProductValid(form) && ImageAcceptable(image)
              && (Supplied(image) ==> env.writeSucceeds)
              && form.categoryId in s.categories
    ensures r.outcome.Success? ==>
              && r.store.products.Keys == s.products.Keys
              && (forall k :: k in s.products && k != id ==> r.store.products[k] == s.products[k])
              && r.store.products[id].id == s.products[id].id
              && r.store.products[id].userId == s.products[id].userId
              && r.store.products[id].uploadDate == s.products[id].uploadDate
              && r.store.products[id].title == form.title
              && r.store.products[id].description == form.description
              && r.store.products[id].price == form.price
              && r.store.products[id].categoryId == form.categoryId
    ensures r.outcome.Success? && !Supplied(image) ==>
              r.store.products[id].imagePath == s.products[id].imagePath && r.store.files == s.files
    ensures r.outcome.Success? && Supplied(image) ==>
              && r.store.products[id].imagePath == Some(SavedPath(image, env))
              && r.store.files == DeleteImageOf(s.files, s.products[id]) + {SavedPath(image, env)}
    ensures Wf(s) ==> Wf(r.store)
  {
    if id != form.id then Step(s, NotFound)
    else if id !in s.products || s.products[id].userId != caller.id then Step(s, Forbid)
    else if !ProductValid(form) then Step(s, Rejected(InvalidFields))
    else if !Supplied(image) then SaveEdit(s, id, Edited(s.products[id], form), s.files)
    else ReplaceImage(s, id, form, image.value, env)
  }

  /** The GET form and the POST action admit the same callers: the form is
      shown exactly when a matching post is not refused with Forbid. */
  lemma EditPageAgreesWithEdit(s: Store, caller: Caller, id: int, form: Product, image: Option<Upload>, env: StorageEnv)
    requires form.id == id
    ensures EditPage(s, caller, Some(id)).Page? <==> Edit(s, caller, id, form, image, env).outcome != Forbid
  {
  }

  /** POST Products/Delete/id: only the owner; an unknown product is Forbid. */
  function Delete(s: Store, caller: Caller, id: int): (r: Step)
    ensures r.outcome == Forbid <==> id !in s.products || s.products[id].userId != caller.id
    ensures r.outcome == Forbid || r.outcome == Success
    ensures r.outcome == Forbid ==> r.store == s
    ensures r.store.categories == s.categories && r.store.users == s.users
    ensures r.store.productIdentity == s.productIdentity && r.store.categoryIdentity == s.categoryIdentity
    ensures r.outcome == Success ==>
              && r.store.products.Keys == s.products.Keys - {id}
              && (forall k :: k in r.store.products ==> r.store.products[k] == s.products[k])
              && r.store.files == DeleteImageOf(s.files, s.products[id])
    ensures Wf(s) ==> Wf(r.store)
  {
    if id !in s.products || s.products[id].userId != caller.id then Step(s, Forbid)
    else
      var p := s.products[id];
      Step(s.(products := s.products - {id}, files := DeleteImageOf(s.files, p)), Success)
  }

  /** Deleting a row just inserted, as its owner, undoes the insertion. */
  lemma DeleteUndoesInsert(s: Store, caller: Caller, id: int, row: Product, files: set<string>)
    requires id !in s.products && row.userId == caller.id
    requires HasImage(row) ==> row.imagePath.value !in s.files && files == s.files + {row.imagePath.value}
    requires !HasImage(row) ==> files == s.files
    ensures Delete(s.(products := s.products[id := row], files := files), caller, id) == Step(s, Success)
  {
    var s1 := s.(products := s.products[id := row], files := files);
    assert s1.products - {id} == s.products;
    assert DeleteImageOf(files, row) == s.files;
  }

  /** Create followed by the owner's Delete of the new listing gives back the
      original store, provided the upload went to a path not already in use
      (the GUID is fresh) and no image path was submitted with the form; only
      the identity column has moved on. */
  lemma CreateThenDeleteRestores(s: Store, caller: Caller, form: Product, image: Option<Upload>, env: StorageEnv, now: int)
    requires ProductValid(form) && ImageAcceptable(image) && (Supplied(image) ==> env.writeSucceeds)
    requires CanInsert(s, caller, form)
    requires Supplied(image) ==> SavedPath(image, env) !in s.files
    requires !Supplied(image) ==> form.imagePath == None
    ensures Delete(Create(s, caller, form, image, env, now).store, caller, s.productIdentity)
            == Step(s.(productIdentity := s.productIdentity + 1), Success)
  {
    var id := s.productIdentity;
    var s1 := Create(s, caller, form, image, env, now).store;
    var row := s1.products[id];
    var t := s.(productIdentity := id + 1);
    assert s1.products == s.products[id := row];
    assert s1 == t.(products := t.products[id := row], files := s1.files);
    DeleteUndoesInsert(t, caller, id, row, s1.files);
  }

  /** A listing's key is never handed out again: after the owner deletes it,
      whatever is created next, Details for that key stays NotFound. */
  lemma DeletedListingStaysNotFound(s: Store, caller: Caller, form: Product, image: Option<Upload>, env: StorageEnv, now: int,
                                    other: Caller, next: Product, nextImage: Option<Upload>, nextEnv: StorageEnv, later: int)
    requires ProductValid(form) && ImageAcceptable(image) && (Supplied(image) ==> env.writeSucceeds)
    requires CanInsert(s, caller, form)
    ensures var id := s.productIdentity;
            var s1 := Create(s, caller, form, image, env, now).store;
            var s2 := Delete(s1, caller, id).store;
            var s3 := Create(s2, other, next, nextImage, nextEnv, later).store;
            && id in s1.products
            && Details(s3, Some(id)) == Refused(NotFound)
  {
    var id := s.productIdentity;
    var s1 := Create(s, caller, form, image, env, now).store;
    var s2 := Delete(s1, caller, id).store;
    assert id !in s2.products && s2.productIdentity == id + 1;
  }

  /** Create keeps a client-submitted ImagePath when no file is uploaded, and
      Delete removes whatever path the row holds. So a user can list an item
      carrying the path of another listing's image and, by deleting their own
      item, remove that file while the other listing still points to it. */
  lemma SubmittedImagePathIsDeletedWithTheListing(s: Store, caller: Caller, form: Product, env: StorageEnv, now: int, victim: int)
    requires victim in s.products && HasImage(s.products[victim])
    requires form.imagePath == s.products[victim].imagePath
    requires ProductValid(form) && CanInsert(s, caller, form)
    ensures var s1 := Create(s, caller, form, None, env, now).store;
            var s2 := Delete(s1, caller, s.productIdentity).store;
            && victim in s2.products
            && s2.products[victim] == s.products[victim]
            && s.products[victim].imagePath.value !in s2.files
  {
    var id := s.productIdentity;
    var s1 := Create(s, caller, form, None, env, now).store;
    assert s1.products[id].imagePath == form.imagePath;
    assert victim != id;
  }

  /** Without an upload, repeating an edit changes nothing further: the second
      call returns what the first did and leaves the store as the first left it. */
  lemma EditWithoutImageIsIdempotent(s: Store, caller: Caller, id: int, form: Product, image: Option<Upload>, env: StorageEnv)
    requires !Supplied(image)
    ensures Edit(Edit(s, caller, id, form, image, env).store, caller, id, form, image, env)
            == Edit(s, caller, id, form, image, env)
  {
    var r1 := Edit(s, caller, id, form, image, env);
    if r1.outcome == Success {
      var s1 := r1.store;
      assert s1.products[id] == Edited(s.products[id], form);
      assert Edited(s1.products[id], form) == s1.products[id];
      assert s1.products[id := s1.products[id]] == s1.products;
    } else {
      assert r1.store == s;
    }
  }

  /** The old image is deleted before the new one is written: when the write
      fails, the row still names its old image, which is gone from the disk. */
  lemma FailedWriteOnEditLosesOldImage(s: Store, caller: Caller, id: int, form: Product, image: Option<Upload>, env: StorageEnv)
    requires id == form.id && id in s.products && s.products[id].userId == caller.id
    requires ProductValid(form) && Supplied(image) && CheckImage(image.value).Accepted?
    requires HasImage(s.products[id]) && !env.writeSucceeds
    ensures var r := Edit(s, caller, id, form, image, env);
            && r.outcome == Failed
            && r.store.products[id].imagePath == s.products[id].imagePath
            && s.products[id].imagePath.value !in r.store.files
  {
  }

  /** The user-side Delete admits the owner only: an administrator who does not
      own the listing is refused like anyone else. */
  lemma DeleteRefusesAdministratorWhoIsNotOwner(s: Store, caller: Caller, id: int)
    requires IsAdmin(caller)
    requires id in s.products && s.products[id].userId != caller.id
    ensures Delete(s, caller, id) == Step(s, Forbid)
  {
  }
}

=== FILE: scenarios.dfy ===
/**
 A worked path through the actions: an administrator creates the category
 "Electronics", a seller lists a phone at 199.99 in it, and the catalogue is
 queried by category and by a minimum price above the phone's.
 */
module Scenarios {
  import opened Text
  import opened Models
  import opened Uploads
  import AdminController
  import opened ProductsController

  const Electronics := Category(0, "Electronics", None)

  function PhoneForm(seller: Caller, categoryId: int): Product {
    Product(0, "Phone", "A used phone in good condition", 19999, None, 0, seller.id, categoryId)
  }

  /** With a single listing in the table, the catalogue shows it exactly when
      it matches the filter. */
  lemma IndexOfOneListing(s: Store, k: int, p: Product, f: ListingFilter)
    requires s.products == map[k := p]
    ensures Matches(f, p) ==> Index(s, f) == [p]
    ensures !Matches(f, p) ==> Index(s, f) == []
  {
    var r := Index(s, f);
    assert |r| <= 1;
    assert s.products[k] == p;
    if r != [] {
      assert r[0] in r;
    }
  }

  /** On an empty catalogue with a fresh identity column the first category
      gets id 1. */
  lemma ElectronicsIsCategoryOne(s: Store, admin: Caller)
    requires s.categories == map[] && s.categoryIdentity == 1 && IsAdmin(admin)
    ensures AdminController.CreateCategory(s, admin, Electronics)
              == Step(s.(categories := map[1 := Electronics.(id := 1)], categoryIdentity := 2), Success)
  {
    ElectronicsIsValid();
  }

  lemma ElectronicsIsValid()
    ensures CategoryValid(Electronics)
  {
    assert !IsWhiteSpace(Electronics.name[0]);
  }

  /** A valid listing without an image, created on an empty product table
      with a fresh identity column, becomes listing 1 and the table's only row. */
  lemma FirstListing(s: Store, seller: Caller, form: Product, env: StorageEnv, now: int)
    requires s.products == map[] && s.productIdentity == 1 && form.categoryId in s.categories && seller.id in s.users
    requires ProductValid(form) && form.id == 0
    ensures
      var r := Create(s, seller, form, None, env, now);
      && r.outcome == Success
      && r.store.products.Keys == {1}
      && r.store.products == map[1 := r.store.products[1]]
      && r.store.products[1].price == form.price
      && r.store.products[1].categoryId == form.categoryId
  {
    assert s.products.Keys == {};
  }

  lemma PhoneFormValid(seller: Caller, categoryId: int)
    requires Required(seller.id)
    ensures ProductValid(PhoneForm(seller, categoryId))
  {
    var form := PhoneForm(seller, categoryId);
    assert !IsWhiteSpace(form.title[0]);
    assert !IsWhiteSpace(form.description[0]);
  }

  /** The store after the administrator creates "Electronics" and the seller
      lists the phone in it, both on an empty catalogue whose identity columns
      start at 1. */
  function AfterPhoneListed(s: Store, admin: Caller, seller: Caller, env: StorageEnv, now: int): Store {
    var s1 := AdminController.CreateCategory(s, admin, Electronics).store;
    Create(s1, seller, PhoneForm(seller, 1), None, env, now).store
  }

  lemma PhoneIsOnlyListing(s: Store, admin: Caller, seller: Caller, env: StorageEnv, now: int)
    requires Wf(s) && s.products == map[] && s.categories == map[]
    requires s.productIdentity == 1 && s.categoryIdentity == 1
    requires IsAdmin(admin) && seller.id in s.users
    ensures
      var t := AfterPhoneListed(s, admin, seller, env, now);
      && 1 in t.products && t.products == map[1 := t.products[1]]
      && t.products[1].price == 19999
      && t.products[1].categoryId == 1
  {
    ElectronicsIsCategoryOne(s, admin);
    var s1 := AdminController.CreateCategory(s, admin, Electronics).store;
    PhoneFormValid(seller, 1);
    FirstListing(s1, seller, PhoneForm(seller, 1), env, now);
  }

  /** The two queries on a catalogue whose only listing is the phone. */
  lemma QueriesOnThePhone(t: Store)
    requires 1 in t.products && t.products == map[1 := t.products[1]]
    requires t.products[1].price == 19999 && t.products[1].categoryId == 1
    ensures Index(t, ListingFilter("", Some(1), None, None)) == [t.products[1]]
    ensures Index(t, ListingFilter("", None, Some(20000), None)) == []
  {
    IndexOfOneListing(t, 1, t.products[1], ListingFilter("", Some(1), None, None));
    IndexOfOneListing(t, 1, t.products[1], ListingFilter("", None, Some(20000), None));
  }

  /** Filtering by the category's id lists the phone. */
  lemma PhoneIsListedUnderElectronics(s: Store, admin: Caller, seller: Caller, env: StorageEnv, now: int)
    requires Wf(s) && s.products == map[] && s.categories == map[]
    requires s.productIdentity == 1 && s.categoryIdentity == 1
    requires IsAdmin(admin) && seller.id in s.users
    ensures
      var t := AfterPhoneListed(s, admin, seller, env, now);
      && 1 in t.products
      && Index(t, ListingFilter("", Some(1), None, None)) == [t.products[1]]
  {
    PhoneIsOnlyListing(s, admin, seller, env, now);
    QueriesOnThePhone(AfterPhoneListed(s, admin, seller, env, now));
  }

  /** A minimum price of 200.00 excludes the phone at 199.99. */
  lemma PhoneIsBelowMinimumPrice(s: Store, admin: Caller, seller: Caller, env: StorageEnv, now: int)
    requires Wf(s) && s.products == map[] && s.categories == map[]
    requires s.productIdentity == 1 && s.categoryIdentity == 1
    requires IsAdmin(admin) && seller.id in s.users
    ensures Index(AfterPhoneListed(s, admin, seller, env, now), ListingFilter("", None, Some(20000), None)) == []
  {
    PhoneIsOnlyListing(s, admin, seller, env, now);
    QueriesOnThePhone(AfterPhoneListed(s, admin, seller, env, now));
  }
}

=== FILE: tables.dfy ===
/**
 Integer-keyed tables: listing the keys of a table in ascending order.
 */
module Tables {

  ghost predicate IsLeast(m: int, s: set<int>) {
    m in s && forall y :: y in s ==> m <= y
  }

  lemma NonEmptyHasMember(s: set<int>)
    requires s != {}
    ensures exists x :: x in s
  {
    if forall x :: x !in s {
      assert false;
    }
  }

  lemma {:induction false} LeastExists(s: set<int>)
    requires s != {}
    ensures exists m :: IsLeast(m, s)
    decreases |s|
  {
    NonEmptyHasMember(s);
    var x :| x in s;
    if s == {x} {
      assert IsLeast(x, s);
    } else {
      LeastExists(s - {x});
      var m :| IsLeast(m, s - {x});
      var least := if x < m then x else m;
      forall y | y in s ensures least <= y {
        if y != x {
          assert y in s - {x};
        }
      }
      assert IsLeast(least, s);
    }
  }

  /** `r` lists the set `s` in strictly ascending order. */
  ghost predicate ListsAscending(r: seq<int>, s: set<int>) {
    && |r| == |s|
    && (forall i :: 0 <= i < |r| ==> r[i] in s)
    && (forall k :: k in s ==> k in r)
    && (forall i, j :: 0 <= i < j < |r| ==> r[i] < r[j])
  }

  lemma PrependLeast(m: int, s: set<int>, rest: seq<int>)
    requires IsLeast(m, s)
    requires ListsAscending(rest, s - {m})
    ensures ListsAscending([m] + rest, s)
  {
    var r := [m] + rest;
    assert |s - {m}| == |s| - 1;
    forall k | k in s ensures k in r {
      if k != m {
        assert k in s - {m};
      }
    }
    forall i, j | 0 <= i < j < |r| ensures r[i] < r[j] {
      if i == 0 {
        assert r[j] == rest[j - 1] && rest[j - 1] in s - {m};
      }
    }
  }

  /** The keys of a table in ascending order, each exactly once. */
  function SortedKeys(s: set<int>): (r: seq<int>)
    ensures |r| == |s|
    ensures forall i :: 0 <= i < |r| ==> r[i] in s
    ensures forall k :: k in s ==> k in r
    ensures forall i, j :: 0 <= i < j < |r| ==> r[i] < r[j]
    decreases |s|
  {
    if s == {} then []
    else
      LeastExists(s);
      var m :| m in s && forall y :: y in s ==> m <= y;
      var rest := SortedKeys(s - {m});
      PrependLeast(m, s, rest);
      [m] + rest
  }
}

=== FILE: text.dfy ===
/**
 The string operations the controllers and the data-annotation attributes rely
 on, in the semantics of the .NET runtime: white space as Char.IsWhiteSpace sees
 it, lengths in UTF-16 code units, ordinal substring search, Path.GetExtension
 and lower-casing of file extensions. A null string is represented by "".
 */
module Text {

  /** Char.IsWhiteSpace: the space separators (category Zs), the line and
      paragraph separators, and the controls U+0009..U+000D and U+0085. */
  predicate IsWhiteSpace(c: char) {
    || c == ' '
    || ('\t' <= c <= '\r')
    || c == '\U{0085}'
    || c == '\U{00A0}'
    || c == '\U{1680}'
    || ('\U{2000}' <= c <= '\U{200A}')
    || c == '\U{2028}'
    || c == '\U{2029}'
    || c == '\U{202F}'
    || c == '\U{205F}'
    || c == '\U{3000}'
  }

  /** string.IsNullOrWhiteSpace. */
  predicate IsBlank(s: string) {
    forall i :: 0 <= i < |s| ==> IsWhiteSpace(s[i])
  }

  /** What [Required] demands of a string property: not null, not blank. */
  predicate Required(s: string) {
    !IsBlank(s)
  }

  /** The positions of `s` holding a character outside the Basic Multilingual
      Plane. */
  function Supplementary(s: string): set<int> {
    set i | 0 <= i < |s| && s[i] as int > 0xFFFF
  }

  /** String.Length, which counts UTF-16 code units: a character outside the
      Basic Multilingual Plane is a surrogate pair and counts twice. */
  function Utf16Length(s: string): (n: nat)
    ensures n == |s| + |Supplementary(s)|
    ensures |s| <= n <= 2 * |s|
    ensures (forall i :: 0 <= i < |s| ==> s[i] as int <= 0xFFFF) ==> n == |s|
  {
    if s == [] then 0
    else
      var init := s[..|s| - 1];
      var last := |s| - 1;
      assert Supplementary(s) == Supplementary(init) + (if s[last] as int > 0xFFFF then {last} else {});
      assert last !in Supplementary(init);
      Utf16Length(init) + (if s[last] as int > 0xFFFF then 2 else 1)
  }

  predicate StartsWith(s: string, prefix: string) {
    |prefix| <= |s| && s[..|prefix|] == prefix
  }

  /** String.Contains with ordinal comparison. */
  predicate Contains(hay: string, needle: string)
    decreases |hay|
  {
    StartsWith(hay, needle) || (hay != [] && Contains(hay[1..], needle))
  }

  /** The reference meaning of a substring: some window of `hay` equals `needle`. */
  ghost predicate OccursAt(hay: string, needle: string, i: int) {
    0 <= i && i + |needle| <= |hay| && hay[i..i + |needle|] == needle
  }

  lemma {:induction false} OccursImpliesContains(hay: string, needle: string, i: int)
    requires OccursAt(hay, needle, i)
    ensures Contains(hay, needle)
    decreases i
  {
    if i > 0 {
      assert hay[1..][i - 1..i - 1 + |needle|] == hay[i..i + |needle|];
      OccursImpliesContains(hay[1..], needle, i - 1);
    }
  }

  lemma {:induction false} ContainsImpliesOccurs(hay: string, needle: string) returns (i: int)
    requires Contains(hay, needle)
    ensures OccursAt(hay, needle, i)
    decreases |hay|
  {
    if StartsWith(hay, needle) {
      i := 0;
    } else {
      var k := ContainsImpliesOccurs(hay[1..], needle);
      assert hay[1..][k..k + |needle|] == hay[k + 1..k + 1 + |needle|];
      i := k + 1;
    }
  }

  /** Contains agrees with the reference meaning of a substring on all inputs. */
  lemma ContainsIffOccurs(hay: string, needle: string)
    ensures Contains(hay, needle) <==> exists i :: OccursAt(hay, needle, i)
  {
    if Contains(hay, needle) {
      var i := ContainsImpliesOccurs(hay, needle);
    }
    if exists i :: OccursAt(hay, needle, i) {
      var i :| OccursAt(hay, needle, i);
      OccursImpliesContains(hay, needle, i);
    }
  }

  predicate IsAsciiUpper(c: char) {
    'A' <= c <= 'Z'
  }

  /** Two characters are the same letter up to ASCII case: equal, or an ASCII
      capital and the character 32 code points above it. */
  predicate SameIgnoringAsciiCase(c: char, d: char) {
    || c == d
    || (IsAsciiUpper(c) && d as int == c as int + 32)
    || (IsAsciiUpper(d) && c as int == d as int + 32)
  }

  /** String.Equals with an ASCII case-insensitive comparison. */
  predicate EqualsIgnoringAsciiCase(a: string, b: string) {
    |a| == |b| && forall i :: 0 <= i < |a| ==> SameIgnoringAsciiCase(a[i], b[i])
  }

  /** String.ToLower on the characters a file extension is compared on: the
      result has no ASCII capitals, and each character is either kept or is a
      capital moved to its lower-case letter. */
  function ToLower(s: string): (r: string)
    ensures |r| == |s|
    ensures forall i :: 0 <= i < |r| ==> !IsAsciiUpper(r[i])
    ensures forall i :: 0 <= i < |s| ==>
              r[i] == s[i] || (IsAsciiUpper(s[i]) && r[i] as int == s[i] as int + 32)
  {
    seq(|s|, i requires 0 <= i < |s| => if IsAsciiUpper(s[i]) then (s[i] as int + 32) as char else s[i])
  }

  /** Comparing ToLower(a) with a string that has no capitals is the same as
      comparing `a` with it ignoring ASCII case. */
  lemma ToLowerMatchesIgnoringCase(a: string, b: string)
    requires forall i :: 0 <= i < |b| ==> !IsAsciiUpper(b[i])
    ensures ToLower(a) == b <==> EqualsIgnoringAsciiCase(a, b)
  {
    var r := ToLower(a);
    if EqualsIgnoringAsciiCase(a, b) {
      forall i | 0 <= i < |a| ensures r[i] == b[i] {
        assert SameIgnoringAsciiCase(a[i], b[i]);
        assert !IsAsciiUpper(b[i]);
      }
    }
    if r == b {
      forall i | 0 <= i < |a| ensures SameIgnoringAsciiCase(a[i], b[i]) {
        assert r[i] == b[i];
      }
    }
  }

  predicate IsDirectorySeparator(c: char) {
    c == '/' || c == '\\'
  }

  /** Path.GetExtension: the suffix starting at the last '.' of the final path
      segment, or "" when that segment has no '.' or ends with it. */
  function GetExtension(path: string): string {
    ExtensionWithin(path, |path|)
  }

  /** The scan of Path.GetExtension, from position `i - 1` down to 0. */
  function ExtensionWithin(path: string, i: nat): string
    requires i <= |path|
    decreases i
  {
    if i == 0 then ""
    else if path[i - 1] == '.' then (if i == |path| then "" else path[i - 1..])
    else if IsDirectorySeparator(path[i - 1]) then ""
    else ExtensionWithin(path, i - 1)
  }

  /** Nothing from position `from` to the end is a '.' or a separator. */
  ghost predicate PlainTail(path: string, from: int) {
    forall t :: 0 <= from <= t < |path| ==> path[t] != '.' && !IsDirectorySeparator(path[t])
  }

  /** Position `j` starts an extension: a '.' that is not the last character
      and is followed by neither a '.' nor a separator. */
  ghost predicate ExtensionStart(path: string, j: int) {
    0 <= j < |path| - 1 && path[j] == '.' && PlainTail(path, j + 1)
  }

  lemma {:induction false} ExtensionWithinSpec(path: string, i: nat)
    requires i <= |path|
    requires PlainTail(path, i)
    ensures forall j :: 0 <= j < i && ExtensionStart(path, j) ==> ExtensionWithin(path, i) == path[j..]
    ensures (forall j :: 0 <= j < i ==> !ExtensionStart(path, j)) ==> ExtensionWithin(path, i) == ""
    decreases i
  {
    if i == 0 {
    } else if path[i - 1] == '.' {
      if i == |path| {
        forall j | 0 <= j < i ensures !ExtensionStart(path, j) {
          if j < i - 1 {
            assert path[i - 1] == '.';
          }
        }
      } else {
        assert ExtensionStart(path, i - 1);
        forall j | 0 <= j < i - 1 ensures !ExtensionStart(path, j) {
          assert path[i - 1] == '.';
        }
      }
    } else if IsDirectorySeparator(path[i - 1]) {
      forall j | 0 <= j < i ensures !ExtensionStart(path, j) {
        if j < i - 1 {
          assert IsDirectorySeparator(path[i - 1]);
        }
      }
    } else {
      ExtensionWithinSpec(path, i - 1);
      assert !ExtensionStart(path, i - 1);
    }
  }

  /** GetExtension agrees with its reference definition on every path: it is
      empty exactly when no position starts an extension, and otherwise it is
      the suffix from that position. */
  lemma GetExtensionSpec(path: string)
    ensures GetExtension(path) == "" <==> forall j :: !ExtensionStart(path, j)
    ensures forall j :: ExtensionStart(path, j) ==> GetExtension(path) == path[j..]
  {
    ExtensionWithinSpec(path, |path|);
  }
}

=== FILE: uploads.dfy ===
/**
 Image uploads as the product actions handle them: the size and extension
 checks, the public path a saved file gets, and removal of a product's file.
 The upload directory is the set of public paths in `Store.files`; the GUID a
 save draws and the success of the disk write are supplied by the caller.
 */
module Uploads {
  import opened Text
  import opened Models

  /** 5 * 1024 * 1024 bytes: a file of exactly this size is still accepted. */
  const MaxImageBytes := 5 * 1024 * 1024

  /** The extensions accepted after lower-casing. */
  const AllowedExtensions: set<string> := {".jpg", ".jpeg", ".png", ".gif"}

  /** An uploaded form file: the client's file name and its length in bytes. */
  datatype Upload = Upload(fileName: string, length: nat)

  /** What the runtime decides for one save: the text of the new GUID and
      whether writing the file to disk succeeds. */
  datatype StorageEnv = StorageEnv(freshName: string, writeSucceeds: bool)

  /** `imageFile != null && imageFile.Length > 0`: only then is a file handled. */
  predicate Supplied(image: Option<Upload>) {
    image.Some? && image.value.length > 0
  }

  /** The lower-cased extension of the client's file name. */
  function ExtensionOf(u: Upload): string {
    ToLower(GetExtension(u.fileName))
  }

  datatype ImageCheck = Accepted(extension: string) | Declined(reason: Rejection)

  /** The size check comes first, then the extension check. */
  function CheckImage(u: Upload): (r: ImageCheck)
    ensures r.Accepted? <==> u.length <= MaxImageBytes && ExtensionOf(u) in AllowedExtensions
    ensures r.Accepted? ==> r.extension in AllowedExtensions && r.extension == ExtensionOf(u)
    ensures r == Declined(FileTooLarge) <==> u.length > MaxImageBytes
    ensures r == Declined(FileTypeNotAllowed) <==>
              u.length <= MaxImageBytes && ExtensionOf(u) !in AllowedExtensions
  {
    if u.length > MaxImageBytes then Declined(FileTooLarge)
    else
      var ext := ExtensionOf(u);
      if ext in AllowedExtensions then Accepted(ext) else Declined(FileTypeNotAllowed)
  }

  /** The allowed extensions are written in lower case. */
  lemma AllowedExtensionsAreLowerCase(x: string)
    requires x in AllowedExtensions
    ensures forall i :: 0 <= i < |x| ==> !IsAsciiUpper(x[i])
  {
    assert x == ".jpg" || x == ".jpeg" || x == ".png" || x == ".gif";
  }

  /** The extension check is case-insensitive: an extension passes exactly when
      it equals one of the allowed extensions ignoring ASCII case. */
  lemma ExtensionAllowedIgnoringCase(e: string)
    ensures ToLower(e) in AllowedExtensions <==>
              exists x :: x in AllowedExtensions && EqualsIgnoringAsciiCase(e, x)
  {
    forall x | x in AllowedExtensions ensures ToLower(e) == x <==> EqualsIgnoringAsciiCase(e, x) {
      AllowedExtensionsAreLowerCase(x);
      ToLowerMatchesIgnoringCase(e, x);
    }
  }

  /** A file name made of any stem and a final extension that lower-cases to
      an allowed one is accepted up to and including 5 MiB and refused beyond;
      the extension is recognised whatever its letter case and whatever dots
      the stem contains. */
  lemma CheckImageByFinalExtension(stem: string, ext: string, length: nat)
    requires |ext| >= 2 && ext[0] == '.'
    requires forall t :: 1 <= t < |ext| ==> ext[t] != '.' && !IsDirectorySeparator(ext[t])
    requires ToLower(ext) in AllowedExtensions
    ensures length <= MaxImageBytes ==> CheckImage(Upload(stem + ext, length)) == Accepted(ToLower(ext))
    ensures length > MaxImageBytes ==> CheckImage(Upload(stem + ext, length)) == Declined(FileTooLarge)
  {
    var path := stem + ext;
    assert ExtensionStart(path, |stem|) by {
      forall t | |stem| + 1 <= t < |path|
        ensures path[t] != '.' && !IsDirectorySeparator(path[t])
      {
        assert path[t] == ext[t - |stem|];
      }
    }
    GetExtensionSpec(path);
    assert path[|stem|..] == ext;
  }

  /** The public path of a saved upload: /uploads/<guid><extension>. */
  function UploadPath(name: string, extension: string): (path: string)
    ensures |path| == |"/uploads/"| + |name| + |extension|
    ensures path[..9] == "/uploads/" && path[9..9 + |name|] == name
    ensures path[|path| - |extension|..] == extension
  {
    "/uploads/" + name + extension
  }

  /** The product's ImagePath, when it is neither null nor empty: the only case
      in which the actions delete a file. */
  predicate HasImage(p: Product) {
    p.imagePath.Some? && p.imagePath.value != ""
  }

  /** Deleting the product's image file: a missing file is not an error. */
  function DeleteImageOf(files: set<string>, p: Product): (f: set<string>)
    ensures f <= files
    ensures HasImage(p) ==> p.imagePath.value !in f && files - f <= {p.imagePath.value}
    ensures !HasImage(p) ==> f == files
  {
    if HasImage(p) then files - {p.imagePath.value} else files
  }
}
